=== FILE: README.md ===
# autoloadManager in Dafny

A model of the PHP class `autoloadManager`. The class keeps a map from
lower-cased class names to the files that declare them. It builds the map by
scanning registered root folders, and answers autoload requests from it. It
rescans when a class is missing, records misses as `null`, and saves the map to
a cache file only while its error log is empty. It also keeps its own loader
last in the host's autoloader chain.

The model is made of pure functions over immutable values, in six modules:

- `Common` holds `Option`/`Result`, plus `strtolower`, PHP string truthiness,
  `implode` and `explode` written over `seq<char>`.
- `Extractor` is `getClassesFromFile` run over an already tokenized file.
- `Scanner` covers `parseFolder`, `parseFolders` and the exclusion test. It
  works on already enumerated files, each given as its pathname, file name,
  is-file flag and declared names.
- `Chain` covers `makeSureThisIsLastAutoloader`, `getOurAutoloaderIndex` and
  `isThisAutoloader`, as surgery on a sequence of loader identities.
- `Paths` covers the pattern built by `setAllowedFileExtensions` and the
  directories `fileWrite` creates.
- `Autoload` holds the manager record and its operations: `setSaveFile`,
  `addFolder`, `excludeFolder`, `addError`/`hasErrors`, `checkClass`,
  `classExists`, `refresh`, `generate` and `loadClass`.

The host runtime enters only as parameters, bundled in `Autoload.Host`:

- the directory listing of a root;
- `preg_match` on a file name;
- whether a class exists after `include_once` of a file;
- whether calling another loader defines a class.

The `debug_backtrace` test for a call from `class_exists` becomes the boolean
`probe`. Saving the cache file is the identity on the map: the manager's
`written` field holds the map last saved, and `setSaveFile` takes the map the
file holds as input.

Some behaviours of the code are easy to misread. The model keeps them as
written:

- The error log is never cleared; every scan pass appends to it.
- `refresh` drops an old entry naming a file when the rescan does not find its
  class again. Only `null` entries survive a rescan unchanged.
- `refresh` always returns true (autoloadManager.php:591). Its doc comment
  (autoloadManager.php:579) promises false when the map did not change.
- A second `namespace` declaration in a file is appended to the first instead
  of replacing it (see Findings).
- A miss is recorded as `null` only when `SCAN_CACHE` is set. This also
  happens when the scan names a file that does not define the class.

## Model

| member | source | states |
|---|---|---|
| Extractor.ReadNamespace | autoloadManager.php:509-514 | the namespace read after a namespace keyword is the old one followed by the texts of the run of name tokens, in order, and the run ends at the first token that is not a name part |
| Extractor.ClassesFromTokens | autoloadManager.php:498-533 | `getClassesFromFile` on a tokenized file; what it reports is stated by Extractor.ExtractorReportsEveryDeclaration, Extractor.ExtractorNeverOvercounts and Extractor.KeywordAtEndReadsEmptyName |
| Extractor.ExtractorReportsEveryDeclaration | autoloadManager.php:505-528 | when no keyword sits inside another's name, the extractor reports one lower-cased, namespace-qualified name per class, interface or trait keyword, in source order; the output length is the number of such keywords |
| Extractor.ExtractorNeverOvercounts | autoloadManager.php:505-528 | on any token sequence, the extractor reports at most one name per declaration keyword |
| Extractor.KeywordAtEndReadsEmptyName | autoloadManager.php:519-526 | a declaration keyword in one of the last two positions reads PHP null as its name: it reports the running namespace followed by a bare `\`, or the empty name without a namespace |
| Extractor.SecondNamespaceConcatenates | autoloadManager.php:500-514 | as written, `namespace A; class X; namespace B; class Y` yields `a\x` and `ab\y` |
| Extractor.ResettingReadsEachNamespace | autoloadManager.php:509-514 | with the namespace reset at each declaration, the same file yields `a\x` and `b\y` |
| Extractor.ResettingForgetsEarlierNamespace | autoloadManager.php:509-514 | with resetting, what follows a namespace declaration does not depend on the namespace before it |
| Extractor.ResettingReportsEveryDeclaration | autoloadManager.php:505-528 | with resetting, when no keyword sits inside another's name, the extractor reports one name per class, interface or trait keyword, in source order, each qualified by the namespace declared last before it |
| Scanner.ScanFiles | autoloadManager.php:455-490 | `parseFolder` over one root's entries; the insertion order lists exactly the keys; the keys, values and errors are stated by Scanner.ScanFilesKeys, Scanner.ScanFilesLastWins, Scanner.ScanFilesErrors and Scanner.RecordAllMessages, and the order's uniqueness by Scanner.ScanFilesOrderDistinct |
| Scanner.ScanFilesKeys | autoloadManager.php:455-490 | the names a root yields are exactly those declared by files that are regular, match the pattern and are not excluded |
| Scanner.ScanFilesLastWins | autoloadManager.php:478-485 | each name a root yields maps to the path of the last read file declaring it |
| Scanner.ScanFilesErrors | autoloadManager.php:478-484 | a root logs no error exactly when every name it reads is declared under one path; a file declaring a name twice is silent |
| Scanner.RecordAllMessages | autoloadManager.php:478-484 | the clashing names of one file are exactly the names it declares that the map already held with another path, each listed once in the order of its first occurrence; storing the file keeps the earlier log and appends one message per clashing name, in that order, each naming the new path first and the stored one second, and nothing else |
| Scanner.ScanFilesOrderDistinct | autoloadManager.php:476-486 | a root's insertion order never lists a name twice, as the keys of a PHP array cannot repeat |
| Scanner.RecordAllErrors | autoloadManager.php:478-484 | storing one file's names appends errors only, and appends none exactly when none of its names is mapped to another path |
| Scanner.RecordAllFound | autoloadManager.php:476-486 | after one file, each name it declares maps to its path, and every other entry is kept |
| Scanner.CrossErrors | autoloadManager.php:437-442 | for each name of the new root that the earlier roots already hold, an error naming the earlier path first; no more errors than entries of the root's order; none exactly when no name is already held |
| Scanner.CrossErrorsAreHeldMessages | autoloadManager.php:437-442 | the errors are exactly, in the root's order, one message per entry of the order that the earlier roots hold, naming the earlier path first and the root's path second, and nothing else |
| Scanner.CrossErrorsOncePerName | autoloadManager.php:436-443 | the cross-root check of a root logs exactly one message per name the root holds that the earlier roots already hold |
| Scanner.ParseFolders | autoloadManager.php:431-447 | `parseFolders`; its keys, values and errors are stated by Scanner.ParseFoldersKeys, Scanner.ParseFoldersLastWins and Scanner.ParseFoldersErrors |
| Scanner.ParseFoldersKeys | autoloadManager.php:431-447 | the names found across roots are exactly those some root yields |
| Scanner.ParseFoldersLastWins | autoloadManager.php:444 | each name found across roots maps to what the last root yielding it found |
| Scanner.ParseFoldersErrors | autoloadManager.php:434-445 | a scan pass logs no error exactly when every root is clean and no name is found in two roots, even under the same path |
| Scanner.ExcludedFolderBoundary | autoloadManager.php:462-471 | when every excluded folder ends in the separator, as `excludeFolder` stores them, a folder excludes a path only where the path continues it at a separator, so it never excludes a sibling whose name only starts with the same letters |
| Scanner.LibraryIsNotUnderLib | autoloadManager.php:204-214 | excluding `/app/lib` keeps `/app/library/x.php` |
| Scanner.ExcludedSubtreeContributesNothing | autoloadManager.php:462-471 | a file under an excluded folder contributes no name and no error |
| Scanner.TwoRootsReportOneDuplicate | autoloadManager.php:436-444 | a name found in two roots logs one error naming the earlier path first, and the later root's path is kept |
| Scanner.SameRootTwiceReportsDuplicate | autoloadManager.php:437-444 | a root registered twice reports its names as duplicates although the path is the same |
| Scanner.SameFileTwiceIsSilent | autoloadManager.php:478-484 | within one root, a file declaring a name twice logs nothing |
| Chain.IndexOf | autoloadManager.php:322-328 | the index returned is the first position of this loader, and there is none exactly when it is not registered |
| Chain.Followers | autoloadManager.php:301-302 | when this loader is registered, the loaders after its first occurrence; when it is not, every loader but the first (the missing index acts as 0) |
| Chain.MoveToTail | autoloadManager.php:305-306 | after unregistering and registering, this loader is last and the others keep their order |
| Chain.RunFollowers | autoloadManager.php:310-314 | the former followers are called in order, stopping right after the first that defines the class; one of those called defines it exactly when one of all the followers does |
| Chain.MakeSureLast | autoloadManager.php:295-320 | it returns true exactly when this loader is already last, and then nothing changes; otherwise this loader ends up last, after the other loaders in their old order, and the loaders called are exactly the former followers up to the first that defines the class |
| Chain.ChainSurgery | autoloadManager.php:297-307 | with this loader registered once at position k and not last, the new chain is the old one with position k cut out and the loader appended, and the loaders called are a prefix of those after position k |
| Chain.ReorderSettles | autoloadManager.php:295-320 | a second reorder finds this loader last and does nothing |
| Paths.ExtensionsPattern | autoloadManager.php:166-178 | the pattern starts with `/\.` and ends with `$/`; between them sits the single extension as given, or the extensions joined by `\|` in parentheses |
| Paths.ExtensionsRoundTrip | autoloadManager.php:166-178 | the pattern built from a non-empty list of extensions without `\|` reads back into exactly that list |
| Paths.DefaultPatternIsIncPhp | autoloadManager.php:92 | the default pattern `/\.(inc\|php)$/` is the one built from the list inc, php |
| Paths.DirectoriesToCreate | autoloadManager.php:660-679 | the directories `fileWrite` checks, in order; stated by Paths.DirectoriesAreSlashPrefixes and Paths.DirectoriesLeadToFile |
| Paths.DirectoriesAreSlashPrefixes | autoloadManager.php:660-679 | the directories `fileWrite` checks are the prefixes of the normalised file name that end right before a `/`, shortest first, without the empty one of an absolute path |
| Paths.DirectoriesLeadToFile | autoloadManager.php:660-679 | every such directory, followed by `/`, is a prefix of the file name, and each comes before the directories inside it |
| Paths.Normalize | autoloadManager.php:660 | every backslash becomes `/`, no backslash is left, and every other character stays in place |
| Autoload.SetSaveFile | autoloadManager.php:139-146 | the save file is set, the map it holds replaces the class map only when the path is truthy and the file exists, and nothing else changes |
| Autoload.Create | autoloadManager.php:118-122 | a new manager has no roots, no excluded folders, an empty log, nothing saved and the default pattern; it holds the given save file and options, and the saved map when that file exists |
| Autoload.AddFolder | autoloadManager.php:186-196 | a resolvable directory is appended to the roots; otherwise `Failed to open dir : ` plus the path is thrown |
| Autoload.ExcludeFolder | autoloadManager.php:204-214 | a resolvable directory is appended to the excluded folders with a trailing separator, so every stored excluded folder keeps ending in one, and nothing else changes; otherwise the same exception |
| Autoload.SetAllowedFileExtensions | autoloadManager.php:166-178 | only the file-name pattern changes, it becomes the pattern built from the argument, and a plain list of extensions can be read back from it |
| Autoload.ErrorsAreSticky | autoloadManager.php:259-270 | `hasErrors` holds after `addError`, stays true across a scan pass, and a scan pass makes it true from false exactly when the pass logs something |
| Autoload.AddError | autoloadManager.php:267-270 | the log grows by exactly the new entry at its end, and nothing else changes |
| Autoload.CheckClass | autoloadManager.php:408-423 | the code is null-marked exactly for a name mapped to null; absent names are not found; a name mapped to a file exists exactly when the host defines it after including that file |
| Autoload.ClassExistsIn | autoloadManager.php:222-225 | true exactly when the name, as given, maps to a file that defines it |
| Autoload.Merge | autoloadManager.php:581-591 | the merge of the null entries (`_getNullElements`) with a fresh scan: the merged key set is the old null keys plus the fresh keys; fresh keys map to their fresh path, old null keys not found stay null, old file entries not found are dropped |
| Autoload.Refresh | autoloadManager.php:581-592 | the class map becomes the merge of the old map with a fresh scan, the scan's errors are appended to the log, nothing else changes, and the result is always true |
| Autoload.Generate | autoloadManager.php:599-611 | without a save file nothing happens and the result is false; otherwise the manager is exactly the refreshed one, the map is saved exactly when the log is empty, and the result says whether the log is empty |
| Autoload.Settle | autoloadManager.php:390-394 | `SCAN_ONCE` is cleared unless the bit of value 2 (`& 2`) is set, and no other bit changes |
| Autoload.Mark | autoloadManager.php:370-380 | a name still not found is recorded as null exactly when `SCAN_CACHE` is set; otherwise the map is unchanged, and no other entry ever changes |
| Autoload.Rescan | autoloadManager.php:366-394 | the log is the refreshed log; an exception is thrown exactly when a save file is set and the log is not empty, and then the options are kept; otherwise the map is saved when a save file is set and the options are settled; no save happens with errors logged or without a save file; the roots, excluded folders, pattern and save file are kept |
| Autoload.LoadClass | autoloadManager.php:347-396 | a rescan happens exactly when no former follower defined the class, the lower-cased name is not found, `SCAN_ONCE` is set and the call is not a probe; without a rescan the manager is unchanged; the chain and the loaders called by hand are those of the reorder, so this loader always ends up last |
| Autoload.TombstoneOnlyWithCache | autoloadManager.php:366-380 | after a rescan for a missing name, it is recorded as null exactly when `SCAN_CACHE` is set and the rescan produced no file that defines it |
| Autoload.MissTwiceScansOnce | autoloadManager.php:364-380 | with `SCAN_CACHE`, looking up twice a name no root declares rescans only the first time, and the second lookup changes nothing |
| Autoload.ScanOnceScansOnce | autoloadManager.php:364-394 | without the bit of value 2 (`& 2`), after one rescan that did not throw, no later lookup rescans |
| Autoload.ScanNeverNeverRescans | autoloadManager.php:364-365 | with `SCAN_NEVER`, a lookup never rescans and leaves the manager unchanged |
| Autoload.ScanAlwaysKeepsScanning | autoloadManager.php:390-394 | with the bit of value 2 (`& 2`) set, a lookup never changes the scan options |
| Autoload.RefreshLiftsTombstone | autoloadManager.php:581-591 | a name recorded as null is found by `refresh` once a root declares it, and then exists if its file defines it; while no root declares it, it stays null |
| Autoload.RefreshIdempotent | autoloadManager.php:581-591 | refreshing twice against the same files gives the same class map as refreshing once |
| Autoload.ErrorLogOnlyGrows | autoloadManager.php:251-270 | no operation removes or rewrites a log entry; the operations that do not scan leave the log alone |
| Autoload.SaveThenLoad | autoloadManager.php:599-611 | a manager built on the save file that `generate` wrote starts from the map that was saved |

## Left out

- Directory enumeration: `RecursiveDirectoryIterator` is an input listing per root, so the listing order is whatever the host gives.
- `realpath` and `is_dir` in `addFolder` and `excludeFolder` are one input: the resolved directory, or nothing.
- Tokenizing and file reading (`token_get_all`, `file_get_contents`): the extractor takes a token sequence.
- PHP 8 qualified-name tokens (`T_NAME_QUALIFIED`) are not among the token kinds; a namespace written as one such token reads as empty.
- `preg_match` semantics: the file-name test is an opaque predicate of the pattern and the file name.
- `include_once`, `class_exists`, `interface_exists` and calling other loaders are host oracles.
- Autoload.LoadClass: re-entrant lookups are not modelled. Including a file (`@include_once` in `checkClass`) or calling a former follower can trigger a nested `loadClass`. That nested call can rescan and change the log, the class map and the scan options before the outer call reads them. The oracles are pure, so the model sees the state from before the outer call, and "without a rescan the manager is unchanged" holds only for a call with no nested lookup.
- `debug_backtrace` is replaced by the `probe` flag.
- `saveToFile`'s `var_export` format and `date()` header are not modelled, nor `include` of the cache file; saving records the map, and loading takes it as input.
- `fileWrite`'s `mkdir`, `chmod` and `file_put_contents` are I/O; only the list of directories it checks is modelled.
- `spl_autoload_register`, `spl_autoload_unregister` and `spl_autoload_functions` are operations on an explicit sequence of loader identities, with `register` never adding a loader twice.
- The `T_NAMESPACE`/`T_TRAIT` compatibility constants at the top of the file are PHP-version plumbing.
- `DIRECTORY_SEPARATOR` is fixed to `/`.
- PHP's conversion of numeric string keys to integers in arrays and in `array_merge` is not modelled; class names are never numeric.
- Getters and plain setters (`getSaveFile`, `setFileRegex`, `setScanOptions`, `getScanOptions`, `getErrors`, `getRegisteredClasses`) are record field reads and updates.
- Extractor.ExtractorReportsEveryDeclaration: assumes no keyword sits inside another keyword's name window; the unconditional statement is the bound in `Extractor.ExtractorNeverOvercounts`.
- Chain.ChainSurgery: describes the chain only when this loader is registered once, which the host guarantees because registering never duplicates.

## Findings

| source | as written | input that shows it | evidently intended | confidence | as-written member | corrected member |
|---|---|---|---|---|---|---|
| autoloadManager.php:509-514 | each `namespace` keyword appends its name to the running namespace with `.=`, which is never reset | `<?php namespace A; class X {} namespace B; class Y {}` | `Y` is reported as `b\y`, its namespace replacing the earlier one; as written it is reported as `ab\y`, so autoloading `B\Y` cannot find it | high, not executed | Extractor.ClassesFromTokens (shown by Extractor.SecondNamespaceConcatenates) | Extractor.ClassesFromTokensResetting (shown by Extractor.ResettingReportsEveryDeclaration, Extractor.ResettingReadsEachNamespace and Extractor.ResettingForgetsEarlierNamespace) |

=== FILE: autoload.dfy ===
/**
  The autoload manager's state and operations (`autoloadManager`): the class
  map, the scan options, the error log, the save file, and the operations that
  read and change them (`checkClass`, `classExists`, `refresh`, `generate`,
  `loadClass`, `addFolder`, `excludeFolder`, `addError`, `hasErrors`,
  `setSaveFile`).

  The manager is an immutable record; every operation returns the new record.
  The host runtime is reached only through the oracles of `Host`: the
  directory listing of each root, `preg_match`, whether a class exists after
  `include_once` of a file, and whether calling another loader defines a
  class. Saving the class map is the identity on the map: `written` holds the
  map last written to the save file.
*/
module Autoload {
  import opened Common
  import Scanner
  import Chain
  import Paths

  /** The scan options are a PHP integer used as a bit mask. */
  const ScanNever: int := 0
  const ScanOnce: int := 1
  const ScanAlways: int := 3
  const ScanCache: int := 4

  /** The bit of `ScanAlways` that keeps `ScanOnce` set after a scan. */
  const KeepScanning: int := 2

  /** `($options & $flag) != 0` for a one-bit flag, on the two's-complement
      reading of the integer (the bit is the floored quotient's parity). */
  predicate HasFlag(options: int, flag: nat)
    requires flag > 0
  {
    (options / flag) % 2 == 1
  }

  const DefaultFilesRegex: string := "/\\.(inc|php)$/"

  /** The outcomes of `checkClass`. */
  datatype CheckResult = ClassNotFound | ClassExists | ClassIsNull

  /** The integer constants `checkClass` returns. */
  function Code(c: CheckResult): int
  {
    match c
    case ClassNotFound => 0
    case ClassExists => 1
    case ClassIsNull => 2
  }

  /** Lower-cased class name to the file declaring it; `None` records that a
      scan did not find the class. */
  type ClassMap = map<string, Option<string>>

  datatype Manager = Manager(
    folders: seq<string>,
    excludedFolders: seq<string>,
    classes: ClassMap,
    filesRegex: string,
    saveFile: string,           // "" stands for null
    written: Option<ClassMap>,  // what the save file holds after the last save
    scanOptions: int,
    errors: seq<string>)

  /** The host runtime as seen by the manager. */
  datatype Host<!L> = Host(
    listing: string -> seq<Scanner.FileEntry>,
    matches: (string, string) -> bool,
    definedAfterInclude: (string, string) -> bool,
    definedBy: (L, string) -> bool)

  // ---------------------------------------------------------------------------
  // Construction and configuration
  // ---------------------------------------------------------------------------

  /** `setSaveFile`: the map stored at an existing save file replaces the
      class map; `onDisk` is what `include` of that file returns, `None` when
      the file does not exist. */
  function SetSaveFile(m: Manager, path: string, onDisk: Option<ClassMap>): (r: Manager)
    ensures r.saveFile == path
    ensures r.classes == if Truthy(path) && onDisk.Some? then onDisk.value else m.classes
    ensures r == m.(saveFile := path, classes := r.classes)
  {
    var m' := m.(saveFile := path);
    if Truthy(path) && onDisk.Some? then m'.(classes := onDisk.value) else m'
  }

  /** The constructor: an empty manager, then `setSaveFile` and
      `setScanOptions`. */
  function Create(saveFile: string, options: int, onDisk: Option<ClassMap>): (r: Manager)
    ensures r.folders == [] && r.excludedFolders == [] && r.errors == [] && r.written == None
    ensures r.filesRegex == DefaultFilesRegex && r.saveFile == saveFile && r.scanOptions == options
    ensures r.classes == if Truthy(saveFile) && onDisk.Some? then onDisk.value else map[]
  {
    var empty := Manager([], [], map[], DefaultFilesRegex, "", None, ScanOnce, []);
    SetSaveFile(empty, saveFile, onDisk).(scanOptions := options)
  }

  /** `addFolder`: `resolved` is `realpath(path)` when that names a
      directory, `None` otherwise. */
  function AddFolder(m: Manager, path: string, resolved: Option<string>): (r: Result<Manager>)
    ensures r.Ok? <==> resolved.Some?
    ensures r.Ok? ==> r.value == m.(folders := m.folders + [resolved.value])
    ensures r.Thrown? ==> r.message == "Failed to open dir : " + path
  {
    if resolved.Some? then Ok(m.(folders := m.folders + [resolved.value]))
    else Thrown("Failed to open dir : " + path)
  }

  /** `setAllowedFileExtensions`: only the file-name pattern changes, and a
      plain list of extensions can be read back from it. */
  function SetAllowedFileExtensions(m: Manager, e: Paths.Extensions): (r: Manager)
    ensures r == m.(filesRegex := r.filesRegex)
    ensures e.Many? && Paths.PlainExtensions(e.exts) ==> Paths.ExtensionsOf(r.filesRegex) == Some(e.exts)
    ensures r.filesRegex == Paths.ExtensionsPattern(e)
  {
    var r := m.(filesRegex := Paths.ExtensionsPattern(e));
    if e.Many? && Paths.PlainExtensions(e.exts) then
      Paths.ExtensionsRoundTrip(e.exts);
      r
    else r
  }

  /** `excludeFolder`: the resolved path is stored with a trailing
      separator, so the exclusion test matches whole path segments. */
  function ExcludeFolder(m: Manager, path: string, resolved: Option<string>): (r: Result<Manager>)
    ensures r.Ok? <==> resolved.Some?
    ensures r.Ok? ==> r.value.excludedFolders == m.excludedFolders + [resolved.value + [Scanner.DirectorySeparator]]
    ensures r.Ok? ==> r.value == m.(excludedFolders := r.value.excludedFolders)
    ensures r.Ok? && Scanner.EndInSeparator(m.excludedFolders) ==> Scanner.EndInSeparator(r.value.excludedFolders)
    ensures r.Thrown? ==> r.message == "Failed to open dir : " + path
  {
    if resolved.Some? then
      Ok(m.(excludedFolders := m.excludedFolders + [resolved.value + [Scanner.DirectorySeparator]]))
    else Thrown("Failed to open dir : " + path)
  }

  /** `addError`: the log only grows, at its end. */
  function AddError(m: Manager, error: string): (r: Manager)
    ensures r.errors == m.errors + [error]
    ensures r == m.(errors := r.errors)
  {
    m.(errors := m.errors + [error])
  }

  /** `hasErrors`. */
  predicate HasErrors(m: Manager)
  {
    |m.errors| != 0
  }

  /** Once an error is logged, `hasErrors` holds, and no later logging or
      scan pass makes it false again. */
  lemma ErrorsAreSticky<L>(m: Manager, error: string, host: Host<L>)
    ensures HasErrors(AddError(m, error))
    ensures HasErrors(m) ==> HasErrors(Refresh(m, host).0)
    ensures !HasErrors(m) ==> (HasErrors(Refresh(m, host).0) <==> FreshScan(m, host).errors != [])
  {
  }

  // ---------------------------------------------------------------------------
  // Lookup
  // ---------------------------------------------------------------------------

  /** `checkClass`: a name mapped to a file is included and then asked after;
      a name mapped to `null` was already searched for; an absent name is not
      found. */
  function CheckClass(name: string, classes: ClassMap, definedAfterInclude: (string, string) -> bool): (c: CheckResult)
    ensures c == ClassIsNull <==> name in classes && classes[name].None?
    ensures name !in classes ==> c == ClassNotFound
    ensures name in classes && classes[name].Some? ==>
      (c == ClassExists <==> definedAfterInclude(name, classes[name].value))
  {
    if name in classes && classes[name].Some? then
      if definedAfterInclude(name, classes[name].value) then ClassExists else ClassNotFound
    else if name in classes then ClassIsNull
    else ClassNotFound
  }

  /** `classExists`: the name is looked up as given, without lower-casing. */
  function ClassExistsIn(m: Manager, name: string, definedAfterInclude: (string, string) -> bool): (b: bool)
    ensures b <==> name in m.classes && m.classes[name].Some? && definedAfterInclude(name, m.classes[name].value)
  {
    Code(CheckClass(name, m.classes, definedAfterInclude)) == Code(ClassExists)
  }

  // ---------------------------------------------------------------------------
  // Scanning
  // ---------------------------------------------------------------------------

  function FilterOf<L>(m: Manager, host: Host<L>): Scanner.Filter
  {
    Scanner.Filter(m.filesRegex, m.excludedFolders, host.matches)
  }

  /** `parseFolders` over the manager's roots. */
  function FreshScan<L>(m: Manager, host: Host<L>): Scanner.RootsScan
  {
    Scanner.ParseFolders(FilterOf(m, host), host.listing, m.folders)
  }

  /** `array_filter($classes, '_getNullElements')`. */
  function NullEntries(classes: ClassMap): ClassMap
  {
    map k | k in classes && classes[k].None? :: None
  }

  /** `array_merge($nullClasses, $newClasses)`: the `null` entries of the old
      map, overridden by what the scan found; an old entry naming a file is
      kept only if the scan finds its class again. */
  function Merge(classes: ClassMap, found: map<string, string>): (r: ClassMap)
    ensures forall k :: k in r <==> (k in classes && classes[k].None?) || k in found
    ensures forall k :: k in found ==> r[k] == Some(found[k])
    ensures forall k :: k in classes && classes[k].None? && k !in found ==> r[k] == None
    ensures forall k :: k in classes && classes[k].Some? && k !in found ==> k !in r
  {
    NullEntries(classes) + map k | k in found :: Some(found[k])
  }

  /** `refresh`: rescan every root, merge what it found into the map, append
      the scan's errors to the log, and report success regardless. */
  function Refresh<L>(m: Manager, host: Host<L>): (r: (Manager, bool))
    ensures r.1
    ensures r.0.classes == Merge(m.classes, FreshScan(m, host).found)
    ensures r.0.errors == m.errors + FreshScan(m, host).errors
    ensures r.0 == m.(classes := r.0.classes, errors := r.0.errors)
  {
    var scan := FreshScan(m, host);
    (m.(classes := Merge(m.classes, scan.found), errors := m.errors + scan.errors), true)
  }

  /** `generate`: with a save file, refresh and save when the log is empty,
      reporting whether it is; without one, do nothing and report failure. */
  function Generate<L>(m: Manager, host: Host<L>): (r: (Manager, bool))
    ensures !Truthy(m.saveFile) ==> r == (m, false)
    ensures Truthy(m.saveFile) ==> r.0.classes == Refresh(m, host).0.classes
    ensures r.1 <==> Truthy(m.saveFile) && !HasErrors(r.0)
    ensures r.0.written != m.written ==> !HasErrors(r.0) && r.0.written == Some(r.0.classes)
    ensures r.1 ==> r.0.written == Some(r.0.classes)
    ensures m.errors <= r.0.errors
    ensures Truthy(m.saveFile) ==> r.0 == Refresh(m, host).0.(written := r.0.written)
  {
    if Truthy(m.saveFile) then
      var refreshed := Refresh(m, host).0;
      var saved := if !HasErrors(refreshed) then refreshed.(written := Some(refreshed.classes)) else refreshed;
      (saved, !HasErrors(saved))
    else (m, false)
  }

  // ---------------------------------------------------------------------------
  // loadClass
  // ---------------------------------------------------------------------------

  /** The message of the exception `loadClass` throws when it cannot save. */
  function ErrorsMessage(errors: seq<string>): string
  {
    "Errors encountered during autoload: " + Join("\n", errors)
  }

  /** The last step of `loadClass`: unless the options keep scanning,
      `ScanOnce` is cleared (`$options & ~SCAN_ONCE`); no other bit
      changes. */
  function Settle(options: int): (r: int)
    ensures r / 2 == options / 2
    ensures !HasFlag(options, KeepScanning) ==> !HasFlag(r, ScanOnce)
    ensures HasFlag(options, KeepScanning) ==> r == options
  {
    if !HasFlag(options, KeepScanning) then options - options % 2 else options
  }

  /** The map after the rescan: a name still not found is recorded as `null`
      when `ScanCache` is set. */
  function Mark(classes: ClassMap, name: string, options: int, definedAfterInclude: (string, string) -> bool): (r: ClassMap)
    ensures forall k :: k != name ==> (k in r <==> k in classes) && (k in r ==> r[k] == classes[k])
    ensures (name in r && r[name].None?) <==>
      (name in classes && classes[name].None?)
      || (CheckClass(name, classes, definedAfterInclude) == ClassNotFound && HasFlag(options, ScanCache))
    ensures !(CheckClass(name, classes, definedAfterInclude) == ClassNotFound && HasFlag(options, ScanCache)) ==> r == classes
  {
    if CheckClass(name, classes, definedAfterInclude) == ClassNotFound && HasFlag(options, ScanCache)
    then classes[name := None]
    else classes
  }

  /** The rescan branch of `loadClass` for the lower-cased `name`: refresh,
      record a miss as `null` under `ScanCache`, then either throw (save file
      set, errors logged) or save and settle the options. */
  function Rescan<L>(m: Manager, host: Host<L>, name: string): (r: (Manager, Option<string>))
    ensures m.errors <= r.0.errors
    ensures r.0.classes == Mark(Refresh(m, host).0.classes, name, m.scanOptions, host.definedAfterInclude)
    ensures r.1.Some? <==> Truthy(m.saveFile) && HasErrors(r.0)
    ensures r.1.Some? ==> r.1.value == ErrorsMessage(r.0.errors)
    ensures r.0.written != m.written ==> !HasErrors(r.0) && r.0.written == Some(r.0.classes)
    ensures r.0.scanOptions == if r.1.Some? then m.scanOptions else Settle(m.scanOptions)
    ensures r.1.None? && Truthy(m.saveFile) ==> r.0.written == Some(r.0.classes)
    ensures !Truthy(m.saveFile) ==> r.0.written == m.written
    ensures r.0.errors == Refresh(m, host).0.errors
    ensures r.0 == m.(classes := r.0.classes, errors := r.0.errors, written := r.0.written, scanOptions := r.0.scanOptions)
  {
    var refreshed := Refresh(m, host).0;
    var marked := refreshed.(classes := Mark(refreshed.classes, name, m.scanOptions, host.definedAfterInclude));
    if Truthy(marked.saveFile) && HasErrors(marked) then
      (marked, Some(ErrorsMessage(marked.errors)))
    else
      var saved := if Truthy(marked.saveFile) then marked.(written := Some(marked.classes)) else marked;
      (saved.(scanOptions := Settle(saved.scanOptions)), None)
  }

  /** Everything one `loadClass` call leaves behind: the manager, the loader
      chain, the loaders it called by hand, whether it rescanned, and the
      exception it threw, if any. */
  datatype LoadOutcome<L> = LoadOutcome(
    manager: Manager,
    chain: seq<L>,
    invoked: seq<L>,
    scanned: bool,
    thrown: Option<string>)

  /** After the chain step, a loader that used to follow this one defined
      the class, so `loadClass` returns at once. */
  predicate ResolvedByFollower<L(==)>(chain: seq<L>, self: L, className: string, definedBy: (L, string) -> bool)
  {
    var reorder := Chain.MakeSureLast(chain, self, className, definedBy);
    !reorder.wasLast && Chain.AnyDefines(reorder.invoked, className, definedBy)
  }

  /** The rescan condition of `loadClass`: not found, `ScanOnce` set, and not
      called from `class_exists`. */
  predicate RescanWanted(m: Manager, name: string, definedAfterInclude: (string, string) -> bool, probe: bool)
  {
    CheckClass(name, m.classes, definedAfterInclude) == ClassNotFound
    && HasFlag(m.scanOptions, ScanOnce)
    && !probe
  }

  /** `loadClass`. `probe` says whether the call comes from `class_exists`. */
  function LoadClass<L(==)>(m: Manager, host: Host<L>, chain: seq<L>, self: L, className: string, probe: bool): (out: LoadOutcome<L>)
    ensures out.scanned <==>
      !ResolvedByFollower(chain, self, className, host.definedBy)
      && RescanWanted(m, Lower(className), host.definedAfterInclude, probe)
    ensures probe ==> !out.scanned
    ensures !out.scanned ==> out.manager == m && out.thrown == None
    ensures out.scanned ==> (out.manager, out.thrown) == Rescan(m, host, Lower(className))
    ensures Chain.IsLast(out.chain, self)
    ensures out.chain == Chain.MakeSureLast(chain, self, className, host.definedBy).chain
    ensures out.invoked == Chain.MakeSureLast(chain, self, className, host.definedBy).invoked
  {
    var reorder := Chain.MakeSureLast(chain, self, className, host.definedBy);
    if !reorder.wasLast && Chain.AnyDefines(reorder.invoked, className, host.definedBy) then
      LoadOutcome(m, reorder.chain, reorder.invoked, false, None)
    else
      var name := Lower(className);
      var loaded := CheckClass(name, m.classes, host.definedAfterInclude);
      if loaded == ClassNotFound && HasFlag(m.scanOptions, ScanOnce) && !probe then
        var (manager, thrown) := Rescan(m, host, name);
        LoadOutcome(manager, reorder.chain, reorder.invoked, true, thrown)
      else
        LoadOutcome(m, reorder.chain, reorder.invoked, false, None)
  }

  // ---------------------------------------------------------------------------
  // Properties across calls
  // ---------------------------------------------------------------------------

  /** After a rescan for a name that was not found, the name is recorded as
      `null` exactly when `ScanCache` is set and the rescan did not produce a
      file that defines it: either no root declares it, or the file the scan
      names does not define it. */
  lemma TombstoneOnlyWithCache<L>(m: Manager, host: Host<L>, name: string)
    requires CheckClass(name, m.classes, host.definedAfterInclude) == ClassNotFound
    ensures var c := Rescan(m, host, name).0.classes;
      (name in c && c[name].None?) <==>
        HasFlag(m.scanOptions, ScanCache)
        && !(name in FreshScan(m, host).found
             && host.definedAfterInclude(name, FreshScan(m, host).found[name]))
  {
    var found := FreshScan(m, host).found;
    var merged := Refresh(m, host).0.classes;
    assert merged == Merge(m.classes, found);
    assert !(name in m.classes && m.classes[name].None?);
    if name in found {
      assert merged[name] == Some(found[name]);
    } else {
      assert name !in merged;
      assert CheckClass(name, merged, host.definedAfterInclude) == ClassNotFound;
    }
  }

  /** A miss answered by a rescan is not rescanned again: with `ScanCache`
      set, two lookups in a row of a name no root declares scan once, and the
      second is answered by the `null` entry alone. */
  lemma MissTwiceScansOnce<L>(m: Manager, host: Host<L>, chain: seq<L>, self: L, className: string)
    requires CheckClass(Lower(className), m.classes, host.definedAfterInclude) == ClassNotFound
    requires Chain.IsLast(chain, self)
    requires HasFlag(m.scanOptions, ScanOnce) && HasFlag(m.scanOptions, ScanCache)
    requires Lower(className) !in FreshScan(m, host).found
    ensures var first := LoadClass(m, host, chain, self, className, false);
      var second := LoadClass(first.manager, host, first.chain, self, className, false);
      first.scanned && !second.scanned && second.manager == first.manager
  {
    var first := LoadClass(m, host, chain, self, className, false);
    var name := Lower(className);
    assert first.scanned;
    TombstoneOnlyWithCache(m, host, name);
    assert CheckClass(name, first.manager.classes, host.definedAfterInclude) == ClassIsNull;
  }

  /** `ScanOnce` without the bit that keeps scanning means one rescan per
      manager: after a rescan that did not throw, no lookup rescans again. */
  lemma ScanOnceScansOnce<L>(m: Manager, host: Host<L>, chain: seq<L>, self: L, className: string,
                             later: seq<L>, other: string, probe: bool)
    requires !HasFlag(m.scanOptions, KeepScanning)
    ensures var first := LoadClass(m, host, chain, self, className, false);
      first.scanned && first.thrown.None? ==>
        !LoadClass(first.manager, host, later, self, other, probe).scanned
  {
    var first := LoadClass(m, host, chain, self, className, false);
    if first.scanned && first.thrown.None? {
      assert first.manager.scanOptions == Settle(m.scanOptions);
      assert !HasFlag(first.manager.scanOptions, ScanOnce);
    }
  }

  /** With `ScanNever`, a lookup never rescans and never changes the
      manager. */
  lemma ScanNeverNeverRescans<L>(m: Manager, host: Host<L>, chain: seq<L>, self: L, className: string, probe: bool)
    requires m.scanOptions == ScanNever
    ensures !LoadClass(m, host, chain, self, className, probe).scanned
    ensures LoadClass(m, host, chain, self, className, probe).manager == m
  {
    assert !HasFlag(m.scanOptions, ScanOnce);
    var out := LoadClass(m, host, chain, self, className, probe);
  }

  /** With the bit that keeps scanning set (`ScanAlways`), a lookup never
      changes the options, so every later miss rescans again. */
  lemma ScanAlwaysKeepsScanning<L>(m: Manager, host: Host<L>, chain: seq<L>, self: L, className: string, probe: bool)
    requires HasFlag(m.scanOptions, KeepScanning)
    ensures LoadClass(m, host, chain, self, className, probe).manager.scanOptions == m.scanOptions
  {
    var out := LoadClass(m, host, chain, self, className, probe);
    if out.scanned {
      assert Settle(m.scanOptions) == m.scanOptions;
    }
  }

  /** A name recorded as `null` is found again by `refresh` once a root
      declares it, and then exists if its file defines it; while no root
      declares it, it stays recorded as `null`. */
  lemma RefreshLiftsTombstone<L>(m: Manager, host: Host<L>, name: string)
    requires name in m.classes && m.classes[name] == None
    ensures var found := FreshScan(m, host).found;
      name in found && host.definedAfterInclude(name, found[name]) ==>
        CheckClass(name, Refresh(m, host).0.classes, host.definedAfterInclude) == ClassExists
    ensures name !in FreshScan(m, host).found ==>
      CheckClass(name, Refresh(m, host).0.classes, host.definedAfterInclude) == ClassIsNull
  {
  }

  /** Refreshing twice against the same files yields the same class map as
      refreshing once. */
  lemma RefreshIdempotent<L>(m: Manager, host: Host<L>)
    ensures Refresh(Refresh(m, host).0, host).0.classes == Refresh(m, host).0.classes
  {
    var once := Refresh(m, host).0;
    var twice := Refresh(once, host).0;
    assert FreshScan(once, host) == FreshScan(m, host);
    var found := FreshScan(m, host).found;
    forall k | k in twice.classes
      ensures k in once.classes && twice.classes[k] == once.classes[k]
    {
    }
    forall k | k in once.classes
      ensures k in twice.classes
    {
    }
  }

  /** The error log only grows: no operation removes or rewrites an entry,
      and the operations that do not scan leave it alone. */
  lemma ErrorLogOnlyGrows<L>(m: Manager, host: Host<L>, chain: seq<L>, self: L, className: string, probe: bool,
                                 error: string, path: string, resolved: Option<string>, e: Paths.Extensions,
                                 onDisk: Option<ClassMap>)
    ensures m.errors <= AddError(m, error).errors
    ensures m.errors <= Refresh(m, host).0.errors
    ensures m.errors <= Generate(m, host).0.errors
    ensures m.errors <= LoadClass(m, host, chain, self, className, probe).manager.errors
    ensures AddFolder(m, path, resolved).Ok? ==> AddFolder(m, path, resolved).value.errors == m.errors
    ensures ExcludeFolder(m, path, resolved).Ok? ==> ExcludeFolder(m, path, resolved).value.errors == m.errors
    ensures SetSaveFile(m, path, onDisk).errors == m.errors
    ensures SetAllowedFileExtensions(m, e).errors == m.errors
  {
    var out := LoadClass(m, host, chain, self, className, probe);
    if out.scanned {
      assert out.manager == Rescan(m, host, Lower(className)).0;
    }
  }

  /** What `generate` saves is what a manager built on the same save file
      starts from. */
  lemma SaveThenLoad<L>(m: Manager, host: Host<L>, options: int)
    requires Generate(m, host).1
    ensures var saved := Generate(m, host).0;
      Create(saved.saveFile, options, saved.written).classes == saved.classes
  {
  }
}

=== FILE: chain.dfy ===
/**
  The autoloader chain protocol (`makeSureThisIsLastAutoloader`,
  `getOurAutoloaderIndex`, `isThisAutoloader`).

  The host keeps an ordered list of registered loaders (`spl_autoload_functions`).
  Here it is an explicit sequence of loader identities; `self` is the identity
  of this manager's `loadClass`. Unregistering removes the entry, and
  registering appends it unless it is already present, so the host never holds
  a loader twice. Whether calling a loader makes the requested class exist is
  an oracle `definedBy(loader, className)`.
*/
module Chain {
  import opened Common

  /** `getOurAutoloaderIndex`: the first position of `self`, or `null` when
      the loop finds none. */
  function IndexOf<L(==)>(chain: seq<L>, self: L): (r: Option<nat>)
    ensures r.Some? ==> r.value < |chain| && chain[r.value] == self && self !in chain[..r.value]
    ensures r.None? <==> self !in chain
    decreases |chain|
  {
    if |chain| == 0 then None
    else if chain[0] == self then Some(0)
    else match IndexOf(chain[1..], self)
      case None => None
      case Some(i) => Some(i + 1)
  }

  /** `isThisAutoloader(end($autoloaders))`: `end` of an empty list is
      `false`, which is no loader. */
  predicate IsLast<L(==)>(chain: seq<L>, self: L)
  {
    |chain| > 0 && chain[|chain| - 1] == self
  }

  /** `array_slice($autoloaders, $ourAutoloaderIndex + 1)`: the loaders after
      `self`. When `self` is not registered the index is `null`, and
      `null + 1` is 1. */
  function Followers<L(==)>(chain: seq<L>, self: L): (r: seq<L>)
    ensures self in chain ==>
      |r| < |chain| && r == chain[|chain| - |r|..]
      && chain[|chain| - |r| - 1] == self && self !in chain[..|chain| - |r| - 1]
    ensures self !in chain ==> r == if |chain| == 0 then [] else chain[1..]
  {
    match IndexOf(chain, self)
    case Some(k) => chain[k + 1..]
    case None => if |chain| == 0 then [] else chain[1..]
  }

  /** `spl_autoload_unregister`: the chain without `self`. */
  function Without<L(==)>(chain: seq<L>, self: L): (r: seq<L>)
    ensures forall i :: 0 <= i < |r| ==> r[i] != self && r[i] in chain
    ensures forall i :: 0 <= i < |chain| && chain[i] != self ==> chain[i] in r
    decreases |chain|
  {
    if |chain| == 0 then []
    else (if chain[0] == self then [] else [chain[0]]) + Without(chain[1..], self)
  }

  /** `spl_autoload_register`: appends unless already registered. */
  function Register<L(==)>(chain: seq<L>, self: L): seq<L>
  {
    if self in chain then chain else chain + [self]
  }

  /** `unregister()` followed by `register()`. */
  function MoveToTail<L(==)>(chain: seq<L>, self: L): (r: seq<L>)
    ensures IsLast(r, self)
    ensures r[..|r| - 1] == Without(chain, self)
  {
    var rest := Without(chain, self);
    assert (rest + [self])[..|rest|] == rest;
    Register(rest, self)
  }

  /** Some invoked loader defined the class. */
  predicate AnyDefines<L>(invoked: seq<L>, className: string, definedBy: (L, string) -> bool)
  {
    exists i :: 0 <= i < |invoked| && definedBy(invoked[i], className)
  }

  /** The `foreach` over the former followers: each is called in turn, and the
      loop stops right after the first one that makes the class exist. */
  function RunFollowers<L>(followers: seq<L>, className: string, definedBy: (L, string) -> bool): (invoked: seq<L>)
    ensures invoked <= followers
    ensures forall i :: 0 <= i < |invoked| - 1 ==> !definedBy(invoked[i], className)
    ensures |invoked| < |followers| ==> |invoked| > 0 && definedBy(invoked[|invoked| - 1], className)
    ensures AnyDefines(invoked, className, definedBy) <==> AnyDefines(followers, className, definedBy)
    decreases |followers|
  {
    if |followers| == 0 then []
    else if definedBy(followers[0], className) then [followers[0]]
    else
      var rest := RunFollowers(followers[1..], className, definedBy);
      assert forall i :: 1 <= i < |followers| ==> followers[i] == followers[1..][i - 1];
      [followers[0]] + rest
  }

  /** What `makeSureThisIsLastAutoloader` leaves behind: its return value, the
      new chain, and the loaders it called by hand. */
  datatype Reorder<L> = Reorder(wasLast: bool, chain: seq<L>, invoked: seq<L>)

  function MakeSureLast<L(==)>(chain: seq<L>, self: L, className: string, definedBy: (L, string) -> bool): (r: Reorder<L>)
    ensures r.wasLast <==> IsLast(chain, self)
    ensures r.wasLast ==> r.chain == chain && r.invoked == []
    ensures IsLast(r.chain, self)
    ensures !r.wasLast ==> r.chain[..|r.chain| - 1] == Without(chain, self)
    ensures r.invoked <= Followers(chain, self)
    ensures !r.wasLast ==> r.invoked == RunFollowers(Followers(chain, self), className, definedBy)
  {
    if IsLast(chain, self) then Reorder(true, chain, [])
    else
      var followers := Followers(chain, self);
      Reorder(false, MoveToTail(chain, self), RunFollowers(followers, className, definedBy))
  }

  // ---------------------------------------------------------------------------
  // List surgery
  // ---------------------------------------------------------------------------

  lemma {:induction false} WithoutAppend<L>(a: seq<L>, b: seq<L>, self: L)
    ensures Without(a + b, self) == Without(a, self) + Without(b, self)
    decreases |a|
  {
    if |a| > 0 {
      WithoutAppend(a[1..], b, self);
      var head := if a[0] == self then [] else [a[0]];
      assert (a + b)[0] == a[0];
      assert (a + b)[1..] == a[1..] + b;
      assert Without(a + b, self) == head + Without(a[1..] + b, self);
      assert Without(a, self) == head + Without(a[1..], self);
    } else {
      assert a + b == b;
    }
  }

  lemma {:induction false} WithoutAbsent<L>(a: seq<L>, self: L)
    requires self !in a
    ensures Without(a, self) == a
    decreases |a|
  {
    if |a| > 0 {
      WithoutAbsent(a[1..], self);
    }
  }

  /** Cutting the single `self` out of a chain. */
  lemma WithoutSplice<L>(before: seq<L>, self: L, after: seq<L>)
    requires self !in before && self !in after
    ensures Without(before + [self] + after, self) == before + after
  {
    var tail := [self] + after;
    assert before + [self] + after == before + tail;
    WithoutAppend(before, tail, self);
    assert tail[0] == self && tail[1..] == after;
    assert Without(tail, self) == Without(after, self);
    WithoutAbsent(before, self);
    WithoutAbsent(after, self);
  }

  /** Cutting `self` out of the one place `k` where it occurs. */
  lemma WithoutAt<L>(chain: seq<L>, self: L, k: nat)
    requires k < |chain| && chain[k] == self
    requires self !in chain[..k] && self !in chain[k + 1..]
    ensures Without(chain, self) == chain[..k] + chain[k + 1..]
  {
    assert chain == chain[..k] + [self] + chain[k + 1..];
    WithoutSplice(chain[..k], self, chain[k + 1..]);
  }

  /** A chain whose last entry is `self` is its other entries followed by `self`. */
  lemma EndsIn<L>(r: seq<L>, self: L, rest: seq<L>)
    requires IsLast(r, self) && r[..|r| - 1] == rest
    ensures r == rest + [self]
  {
    var n := |r| - 1;
    assert r == r[..n] + [r[n]];
  }

  /** When `self` is registered once and is not last, the new chain is the
      old one with `self` cut out of its place and appended, and the loaders
      called by hand are a prefix of those that followed it. */
  lemma ChainSurgery<L>(chain: seq<L>, self: L, className: string, definedBy: (L, string) -> bool, k: nat)
    requires IndexOf(chain, self) == Some(k)
    requires self !in chain[k + 1..]
    requires !IsLast(chain, self)
    ensures MakeSureLast(chain, self, className, definedBy).chain == chain[..k] + chain[k + 1..] + [self]
    ensures MakeSureLast(chain, self, className, definedBy).invoked <= chain[k + 1..]
  {
    var out := MakeSureLast(chain, self, className, definedBy);
    WithoutAt(chain, self, k);
    EndsIn(out.chain, self, chain[..k] + chain[k + 1..]);
  }

  /** Running the reorder twice does nothing the second time. */
  lemma ReorderSettles<L>(chain: seq<L>, self: L, className: string, definedBy: (L, string) -> bool)
    ensures var once := MakeSureLast(chain, self, className, definedBy);
      MakeSureLast(once.chain, self, className, definedBy) == Reorder(true, once.chain, [])
  {
  }
}

=== FILE: common.dfy ===
/**
  Shared vocabulary of the autoload manager model: the PHP `null`-or-value
  wrapper, a success-or-exception result, and the few PHP string built-ins the
  manager relies on (`strtolower`, truthiness of a string, `implode`,
  `explode`), each written out over `seq<char>`.
*/
module Common {

  /** A PHP value that may be `null`. */
  datatype Option<+T> = None | Some(value: T)

  /** The outcome of a PHP call that either returns a value or throws an
      `Exception` carrying a message. */
  datatype Result<+R> = Ok(value: R) | Thrown(message: string)

  /** `strtolower` on one character: only the ASCII letters A-Z change. */
  function LowerChar(c: char): char
  {
    if 'A' <= c <= 'Z' then (c as int + 32) as char else c
  }

  /** `strtolower`, character by character. */
  function Lower(s: string): string
  {
    seq(|s|, i requires 0 <= i < |s| => LowerChar(s[i]))
  }

  /** A string in a boolean context: PHP treats "" and "0" as false. */
  predicate Truthy(s: string)
  {
    s != "" && s != "0"
  }

  /** `implode(sep, xs)`. */
  function Join(sep: string, xs: seq<string>): string
    decreases |xs|
  {
    if |xs| == 0 then ""
    else if |xs| == 1 then xs[0]
    else xs[0] + sep + Join(sep, xs[1..])
  }

  /** `explode(c, s)` for a one-character delimiter: the maximal pieces of `s`
      between occurrences of `c`, so never an empty list. */
  function Split(s: string, c: char): (parts: seq<string>)
    ensures |parts| >= 1
    ensures forall i :: 0 <= i < |parts| ==> c !in parts[i]
    decreases |s|
  {
    if |s| == 0 then [""]
    else if s[0] == c then [""] + Split(s[1..], c)
    else
      var rest := Split(s[1..], c);
      [[s[0]] + rest[0]] + rest[1..]
  }

  /** Splitting a delimiter-free prefix followed by the delimiter. */
  lemma {:induction false} SplitAfterPiece(x: string, c: char, y: string)
    requires c !in x
    ensures Split(x + [c] + y, c) == [x] + Split(y, c)
    decreases |x|
  {
    if |x| == 0 {
      assert x + [c] + y == [c] + y;
      assert ([c] + y)[1..] == y;
    } else {
      SplitAfterPiece(x[1..], c, y);
      assert (x + [c] + y)[1..] == x[1..] + [c] + y;
      assert x == [x[0]] + x[1..];
    }
  }

  /** A delimiter-free string is a single piece. */
  lemma {:induction false} SplitWithoutDelimiter(x: string, c: char)
    requires c !in x
    ensures Split(x, c) == [x]
    decreases |x|
  {
    if |x| > 0 {
      SplitWithoutDelimiter(x[1..], c);
      assert x == [x[0]] + x[1..];
    }
  }

  /** `explode` undoes `implode` when no piece contains the delimiter and
      there is at least one piece (`implode` of an empty list is "", which
      `explode` reads back as one empty piece). */
  lemma {:induction false} SplitJoin(xs: seq<string>, c: char)
    requires |xs| >= 1
    requires forall i :: 0 <= i < |xs| ==> c !in xs[i]
    ensures Split(Join([c], xs), c) == xs
    decreases |xs|
  {
    if |xs| == 1 {
      SplitWithoutDelimiter(xs[0], c);
    } else {
      SplitJoin(xs[1..], c);
      SplitAfterPiece(xs[0], c, Join([c], xs[1..]));
      assert xs == [xs[0]] + xs[1..];
    }
  }
}

=== FILE: extractor.dfy ===
/**
  The lexical class extractor of the autoload manager (`getClassesFromFile`).

  A file is seen through the PHP tokenizer's output: a sequence whose entries
  are either a token with an id and a text, or a bare one-character string
  (punctuation such as `;` or `{`). The extractor walks this sequence once,
  keeping a running namespace, and reports, in source order, the lower-cased
  name declared after each `class`, `interface` or `trait` keyword.

  Reads past the end of the sequence yield PHP's `null`, which behaves as the
  empty string in a concatenation and in `strtolower`: a declaration keyword
  in one of the last two positions therefore reports an empty simple name.
  A bare one-character string read at offset 1 is also the empty string.
*/
module Extractor {
  import opened Common

  /** The token ids the extractor distinguishes; every other id is `Other`. */
  datatype Kind =
    | Namespace      // T_NAMESPACE
    | Class          // T_CLASS
    | Interface      // T_INTERFACE
    | Trait          // T_TRAIT
    | Name           // T_STRING
    | Separator      // T_NS_SEPARATOR
    | Other(id: int)

  /** One entry of `token_get_all`'s result. */
  datatype Token = Tok(kind: Kind, text: string) | Char(c: char)

  predicate IsClassLike(t: Token)
  {
    t.Tok? && (t.kind == Class || t.kind == Interface || t.kind == Trait)
  }

  predicate IsNamespace(t: Token)
  {
    t.Tok? && t.kind == Namespace
  }

  /** A token the extractor's `switch` reacts to. */
  predicate IsKeyword(t: Token)
  {
    IsClassLike(t) || IsNamespace(t)
  }

  /** `$tokens[$i][1]`: the text at position `i`, or "" past the end or on a
      bare one-character string. */
  function TextAt(toks: seq<Token>, i: nat): string
  {
    if i < |toks| && toks[i].Tok? then toks[i].text else ""
  }

  /** Whether position `i` holds a T_STRING or T_NS_SEPARATOR token. */
  predicate IsNamePart(toks: seq<Token>, i: nat)
  {
    i < |toks| && toks[i].Tok? && (toks[i].kind == Name || toks[i].kind == Separator)
  }

  /** The texts of positions `j` up to (not including) `k`, concatenated. */
  function Texts(toks: seq<Token>, j: nat, k: nat): string
    decreases k - j
  {
    if k <= j then "" else TextAt(toks, j) + Texts(toks, j + 1, k)
  }

  /** The inner `while` after a namespace keyword: appends the texts of the
      maximal run of name parts starting at `j` to `ns`, and returns the grown
      namespace with the position of the first token after the run. */
  function ReadNamespace(toks: seq<Token>, j: nat, ns: string): (r: (string, nat))
    ensures j <= r.1
    ensures forall p :: j <= p < r.1 ==> IsNamePart(toks, p)
    ensures !IsNamePart(toks, r.1)
    ensures ns <= r.0
    ensures r.0 == ns + Texts(toks, j, r.1)
    decreases |toks| - j
  {
    if IsNamePart(toks, j) then ReadNamespace(toks, j + 1, ns + toks[j].text)
    else (ns, j)
  }

  /** The key reported for simple name `name` under namespace `ns`. */
  function Qualify(ns: string, name: string): string
  {
    if Truthy(ns) then Lower(ns + "\\" + name) else Lower(name)
  }

  /** The `for` loop of `getClassesFromFile` from position `i` with running
      namespace `ns`. After a namespace keyword the loop resumes one past the
      token that ended the name; after a declaration keyword it resumes three
      positions later. */
  function Scan(toks: seq<Token>, i: nat, ns: string): seq<string>
    decreases |toks| - i
  {
    if |toks| <= i then []
    else if IsNamespace(toks[i]) then
      var (ns', k) := ReadNamespace(toks, i + 2, ns);
      Scan(toks, k + 1, ns')
    else if IsClassLike(toks[i]) then
      [Qualify(ns, TextAt(toks, i + 2))] + Scan(toks, i + 3, ns)
    else Scan(toks, i + 1, ns)
  }

  /** `getClassesFromFile` on an already tokenized file: the namespace
      starts out `null`, which behaves as "". */
  function ClassesFromTokens(toks: seq<Token>): seq<string>
  {
    Scan(toks, 0, "")
  }

  // ---------------------------------------------------------------------------
  // Reference reading: every keyword, every position
  // ---------------------------------------------------------------------------

  /** The namespace text a namespace keyword at `i` declares. */
  function NamespaceRun(toks: seq<Token>, i: nat): string
  {
    ReadNamespace(toks, i + 2, "").0
  }

  /** The position after which the scan resumes past a namespace keyword at
      `i`: the first token that is not part of its name. */
  function NamespaceEnd(toks: seq<Token>, i: nat): nat
  {
    ReadNamespace(toks, i + 2, "").1
  }

  /** A reading that visits every position: each declaration keyword yields
      the name two positions later qualified by the concatenation of all
      namespace names seen before it. */
  function Declared(toks: seq<Token>, i: nat, ns: string): seq<string>
    decreases |toks| - i
  {
    if |toks| <= i then []
    else if IsClassLike(toks[i]) then
      [Qualify(ns, TextAt(toks, i + 2))] + Declared(toks, i + 1, ns)
    else if IsNamespace(toks[i]) then Declared(toks, i + 1, ns + NamespaceRun(toks, i))
    else Declared(toks, i + 1, ns)
  }

  /** How many declaration keywords `toks` holds. */
  function CountClassLike(toks: seq<Token>): nat
  {
    if |toks| == 0 then 0
    else (if IsClassLike(toks[0]) then 1 else 0) + CountClassLike(toks[1..])
  }

  /** No keyword at positions `a` up to (not including) `b`. */
  predicate NoKeywordIn(toks: seq<Token>, a: nat, b: nat)
  {
    forall p :: a <= p < b && p < |toks| ==> !IsKeyword(toks[p])
  }

  /** No keyword hides where the scan jumps over tokens: in the two tokens
      after a declaration keyword, nor between a namespace keyword and the
      token that ends its name. Well-formed PHP yields such streams (a
      keyword is followed by whitespace and an identifier). */
  predicate Unshadowed(toks: seq<Token>)
  {
    forall i :: 0 <= i < |toks| ==>
      (IsClassLike(toks[i]) ==> NoKeywordIn(toks, i + 1, i + 3)) &&
      (IsNamespace(toks[i]) ==> NoKeywordIn(toks, i + 1, NamespaceEnd(toks, i) + 1))
  }

  /** The name run read into a namespace does not depend on what was already
      in it: the grown namespace is the old one followed by the run. */
  lemma {:induction false} ReadNamespaceAppends(toks: seq<Token>, j: nat, ns: string)
    ensures ReadNamespace(toks, j, ns).0 == ns + ReadNamespace(toks, j, "").0
    ensures ReadNamespace(toks, j, ns).1 == ReadNamespace(toks, j, "").1
    decreases |toks| - j
  {
    if IsNamePart(toks, j) {
      ReadNamespaceAppends(toks, j + 1, ns + toks[j].text);
      ReadNamespaceAppends(toks, j + 1, "" + toks[j].text);
      assert "" + toks[j].text == toks[j].text;
    }
  }

  /** Positions without keywords contribute nothing to the reference reading. */
  lemma {:induction false} SkipNonKeywords(toks: seq<Token>, a: nat, b: nat, ns: string)
    requires a <= b
    requires NoKeywordIn(toks, a, b)
    ensures Declared(toks, a, ns) == Declared(toks, b, ns)
    decreases b - a
  {
    if a < b && a < |toks| {
      assert !IsKeyword(toks[a]);
      SkipNonKeywords(toks, a + 1, b, ns);
    }
  }

  lemma {:induction false} ScanIsDeclared(toks: seq<Token>, i: nat, ns: string)
    requires Unshadowed(toks)
    ensures Scan(toks, i, ns) == Declared(toks, i, ns)
    decreases |toks| - i
  {
    if i < |toks| {
      if IsNamespace(toks[i]) {
        ReadNamespaceAppends(toks, i + 2, ns);
        var (ns', k) := ReadNamespace(toks, i + 2, ns);
        ScanIsDeclared(toks, k + 1, ns');
        SkipNonKeywords(toks, i + 1, k + 1, ns');
      } else if IsClassLike(toks[i]) {
        ScanIsDeclared(toks, i + 3, ns);
        SkipNonKeywords(toks, i + 1, i + 3, ns);
      } else {
        ScanIsDeclared(toks, i + 1, ns);
      }
    }
  }

  lemma {:induction false} DeclaredCount(toks: seq<Token>, i: nat, ns: string)
    requires i <= |toks|
    ensures |Declared(toks, i, ns)| == CountClassLike(toks[i..])
    decreases |toks| - i
  {
    if i < |toks| {
      assert toks[i..][1..] == toks[i + 1..];
      if IsNamespace(toks[i]) {
        DeclaredCount(toks, i + 1, ns + NamespaceRun(toks, i));
      } else {
        DeclaredCount(toks, i + 1, ns);
      }
    }
  }

  /** On a stream where no keyword hides in a skipped position, the extractor
      reports exactly one name per declaration keyword, in source order: the
      lower-cased token two positions later, prefixed by every namespace name
      declared before it. */
  lemma ExtractorReportsEveryDeclaration(toks: seq<Token>)
    requires Unshadowed(toks)
    ensures ClassesFromTokens(toks) == Declared(toks, 0, "")
    ensures |ClassesFromTokens(toks)| == CountClassLike(toks)
  {
    ScanIsDeclared(toks, 0, "");
    DeclaredCount(toks, 0, "");
    assert toks[0..] == toks;
  }

  lemma {:induction false} CountSuffixMonotone(toks: seq<Token>, i: nat, j: nat)
    requires i <= j <= |toks|
    ensures CountClassLike(toks[j..]) <= CountClassLike(toks[i..])
    decreases j - i
  {
    if i < j {
      assert toks[i..][1..] == toks[i + 1..];
      CountSuffixMonotone(toks, i + 1, j);
    }
  }

  lemma {:induction false} ScanBound(toks: seq<Token>, i: nat, ns: string)
    ensures |Scan(toks, i, ns)| <= if i <= |toks| then CountClassLike(toks[i..]) else 0
    decreases |toks| - i
  {
    if i < |toks| {
      assert toks[i..][1..] == toks[i + 1..];
      if IsNamespace(toks[i]) {
        var (ns', k) := ReadNamespace(toks, i + 2, ns);
        ScanBound(toks, k + 1, ns');
        if k + 1 <= |toks| { CountSuffixMonotone(toks, i + 1, k + 1); }
      } else if IsClassLike(toks[i]) {
        ScanBound(toks, i + 3, ns);
        if i + 3 <= |toks| { CountSuffixMonotone(toks, i + 1, i + 3); }
      } else {
        ScanBound(toks, i + 1, ns);
      }
    }
  }

  /** On any stream at all, the extractor never reports more names than there
      are declaration keywords. */
  lemma ExtractorNeverOvercounts(toks: seq<Token>)
    ensures |ClassesFromTokens(toks)| <= CountClassLike(toks)
  {
    ScanBound(toks, 0, "");
    assert toks[0..] == toks;
  }

  /** A declaration keyword in one of the last two positions reads a `null`
      name: it reports the running namespace followed by a bare separator,
      or the empty name when there is no namespace. */
  lemma KeywordAtEndReadsEmptyName(toks: seq<Token>, i: nat, ns: string)
    requires i < |toks| <= i + 2 && IsClassLike(toks[i])
    ensures Scan(toks, i, ns) == [Qualify(ns, "")]
    ensures Truthy(ns) ==> Scan(toks, i, ns) == [Lower(ns + "\\")]
  {
    assert TextAt(toks, i + 2) == "";
    assert ns + "\\" + "" == ns + "\\";
  }


  // ---------------------------------------------------------------------------
  // Namespace concatenation (see the README's Findings)
  // ---------------------------------------------------------------------------

  /** `namespace A; class X; namespace B; class Y` as tokens. */
  function TwoNamespaceFile(): seq<Token>
  {
    [ Tok(Namespace, "namespace"), Tok(Other(382), " "), Tok(Name, "A"), Char(';'),
      Tok(Class, "class"), Tok(Other(382), " "), Tok(Name, "X"),
      Tok(Namespace, "namespace"), Tok(Other(382), " "), Tok(Name, "B"), Char(';'),
      Tok(Class, "class"), Tok(Other(382), " "), Tok(Name, "Y") ]
  }

  /** The facts about the two-namespace file the scans depend on. */
  predicate TwoNamespaceShape(t: seq<Token>)
  {
    && |t| == 14
    && IsNamespace(t[0]) && IsClassLike(t[4]) && IsNamespace(t[7]) && IsClassLike(t[11])
    && !IsKeyword(t[3]) && !IsKeyword(t[10])
    && ReadNamespace(t, 2, "") == ("A", 3)
    && ReadNamespace(t, 9, "") == ("B", 10)
    && ReadNamespace(t, 9, "A") == ("AB", 10)
    && TextAt(t, 6) == "X" && TextAt(t, 13) == "Y"
  }

  /** The names the scans read in the two-namespace file. */
  lemma TwoNamespaceFileParts()
    ensures TwoNamespaceShape(TwoNamespaceFile())
  {
    var t := TwoNamespaceFile();
    assert IsNamePart(t, 2) && !IsNamePart(t, 3);
    assert IsNamePart(t, 9) && !IsNamePart(t, 10);
    assert "" + t[2].text == "A";
    assert "" + t[9].text == "B";
    assert "A" + t[9].text == "AB";
  }

  /** The keys the two-namespace file can produce. */
  lemma TwoNamespaceFileKeys()
    ensures Qualify("A", "X") == "a\\x"
    ensures Qualify("AB", "Y") == "ab\\y"
    ensures Qualify("B", "Y") == "b\\y"
  {
    assert "A" + "\\" + "X" == ['A', '\\', 'X'];
    assert Lower(['A', '\\', 'X']) == ['a', '\\', 'x'];
    assert "AB" + "\\" + "Y" == ['A', 'B', '\\', 'Y'];
    assert Lower(['A', 'B', '\\', 'Y']) == ['a', 'b', '\\', 'y'];
    assert "B" + "\\" + "Y" == ['B', '\\', 'Y'];
    assert Lower(['B', '\\', 'Y']) == ['b', '\\', 'y'];
  }

  /** One step of the scan at a namespace keyword. */
  lemma ScanNamespaceStep(t: seq<Token>, i: nat, ns: string, ns': string, k: nat)
    requires i < |t| && IsNamespace(t[i])
    requires ReadNamespace(t, i + 2, ns) == (ns', k)
    ensures Scan(t, i, ns) == Scan(t, k + 1, ns')
  {
  }

  /** One step of the scan at a declaration keyword. */
  lemma ScanClassStep(t: seq<Token>, i: nat, ns: string)
    requires i < |t| && IsClassLike(t[i])
    ensures Scan(t, i, ns) == [Qualify(ns, TextAt(t, i + 2))] + Scan(t, i + 3, ns)
  {
  }

  /** As written, the second namespace is appended to the first, so `Y` is
      reported as `ab\y` although it is declared in namespace `B`. */
  lemma SecondNamespaceConcatenates()
    ensures ClassesFromTokens(TwoNamespaceFile()) == ["a\\x", "ab\\y"]
  {
    TwoNamespaceFileParts();
    ConcatenatesOnShape(TwoNamespaceFile());
  }

  lemma ConcatenatesOnShape(t: seq<Token>)
    requires TwoNamespaceShape(t)
    ensures Scan(t, 0, "") == ["a\\x", "ab\\y"]
  {
    TwoNamespaceFileKeys();
    ScanNamespaceStep(t, 0, "", "A", 3);
    ScanClassStep(t, 4, "A");
    ScanNamespaceStep(t, 7, "A", "AB", 10);
    ScanClassStep(t, 11, "AB");
    assert Scan(t, 14, "AB") == [];
  }

  /** The evidently intended scan: a namespace keyword replaces the running
      namespace with the name it declares. */
  function ScanResetting(toks: seq<Token>, i: nat, ns: string): seq<string>
    decreases |toks| - i
  {
    if |toks| <= i then []
    else if IsNamespace(toks[i]) then
      var (ns', k) := ReadNamespace(toks, i + 2, "");
      ScanResetting(toks, k + 1, ns')
    else if IsClassLike(toks[i]) then
      [Qualify(ns, TextAt(toks, i + 2))] + ScanResetting(toks, i + 3, ns)
    else ScanResetting(toks, i + 1, ns)
  }

  function ClassesFromTokensResetting(toks: seq<Token>): seq<string>
  {
    ScanResetting(toks, 0, "")
  }

  /** With resetting, what follows a namespace declaration is reported the
      same whatever namespace was active before it. */
  lemma ResettingForgetsEarlierNamespace(toks: seq<Token>, i: nat, ns1: string, ns2: string)
    requires i < |toks| && IsNamespace(toks[i])
    ensures ScanResetting(toks, i, ns1) == ScanResetting(toks, i, ns2)
  {
  }

  /** With resetting, the two-namespace file yields `a\x` and `b\y`. */
  lemma ResettingReadsEachNamespace()
    ensures ClassesFromTokensResetting(TwoNamespaceFile()) == ["a\\x", "b\\y"]
  {
    TwoNamespaceFileParts();
    ResettingOnShape(TwoNamespaceFile());
  }

  lemma ResettingOnShape(t: seq<Token>)
    requires TwoNamespaceShape(t)
    ensures ScanResetting(t, 0, "") == ["a\\x", "b\\y"]
  {
    TwoNamespaceFileKeys();
    assert ScanResetting(t, 0, "") == ScanResetting(t, 4, "A");
    assert ScanResetting(t, 4, "A") == ["a\\x"] + ScanResetting(t, 7, "A");
    assert ScanResetting(t, 7, "A") == ScanResetting(t, 11, "B");
    assert ScanResetting(t, 11, "B") == ["b\\y"] + ScanResetting(t, 14, "B");
    assert ScanResetting(t, 14, "B") == [];
  }

  /** The corrected reading at every position: each declaration keyword
      yields the name two positions later qualified by the namespace most
      recently declared before it. */
  function DeclaredResetting(toks: seq<Token>, i: nat, ns: string): seq<string>
    decreases |toks| - i
  {
    if |toks| <= i then []
    else if IsClassLike(toks[i]) then
      [Qualify(ns, TextAt(toks, i + 2))] + DeclaredResetting(toks, i + 1, ns)
    else if IsNamespace(toks[i]) then DeclaredResetting(toks, i + 1, NamespaceRun(toks, i))
    else DeclaredResetting(toks, i + 1, ns)
  }

  /** Positions without keywords contribute nothing to the corrected
      reference reading. */
  lemma {:induction false} SkipNonKeywordsResetting(toks: seq<Token>, a: nat, b: nat, ns: string)
    requires a <= b
    requires NoKeywordIn(toks, a, b)
    ensures DeclaredResetting(toks, a, ns) == DeclaredResetting(toks, b, ns)
    decreases b - a
  {
    if a < b && a < |toks| {
      assert !IsKeyword(toks[a]);
      SkipNonKeywordsResetting(toks, a + 1, b, ns);
    }
  }

  lemma {:induction false} ScanResettingIsDeclared(toks: seq<Token>, i: nat, ns: string)
    requires Unshadowed(toks)
    ensures ScanResetting(toks, i, ns) == DeclaredResetting(toks, i, ns)
    decreases |toks| - i
  {
    if i < |toks| {
      if IsNamespace(toks[i]) {
        var (ns', k) := ReadNamespace(toks, i + 2, "");
        ScanResettingIsDeclared(toks, k + 1, ns');
        SkipNonKeywordsResetting(toks, i + 1, k + 1, ns');
      } else if IsClassLike(toks[i]) {
        ScanResettingIsDeclared(toks, i + 3, ns);
        SkipNonKeywordsResetting(toks, i + 1, i + 3, ns);
      } else {
        ScanResettingIsDeclared(toks, i + 1, ns);
      }
    }
  }

  /** On a stream where no keyword hides in a skipped position, the
      corrected extractor reports one name per declaration keyword, in
      source order, each qualified by the namespace declared last before
      it. */
  lemma ResettingReportsEveryDeclaration(toks: seq<Token>)
    requires Unshadowed(toks)
    ensures ClassesFromTokensResetting(toks) == DeclaredResetting(toks, 0, "")
    ensures |ClassesFromTokensResetting(toks)| == CountClassLike(toks)
  {
    ScanResettingIsDeclared(toks, 0, "");
    DeclaredResettingCount(toks, 0, "");
    assert toks[0..] == toks;
  }

  lemma {:induction false} DeclaredResettingCount(toks: seq<Token>, i: nat, ns: string)
    requires i <= |toks|
    ensures |DeclaredResetting(toks, i, ns)| == CountClassLike(toks[i..])
    decreases |toks| - i
  {
    if i < |toks| {
      assert toks[i..][1..] == toks[i + 1..];
      if IsNamespace(toks[i]) {
        DeclaredResettingCount(toks, i + 1, NamespaceRun(toks, i));
      } else {
        DeclaredResettingCount(toks, i + 1, ns);
      }
    }
  }
}

=== FILE: paths.dfy ===
/**
  Two string computations of the manager: the file-name pattern built by
  `setAllowedFileExtensions`, and the directories `fileWrite` makes sure exist
  before writing the save file.
*/
module Paths {
  import opened Common

  // ---------------------------------------------------------------------------
  // setAllowedFileExtensions
  // ---------------------------------------------------------------------------

  /** The argument of `setAllowedFileExtensions`: one extension string or an
      array of them. */
  datatype Extensions = One(ext: string) | Many(exts: seq<string>)

  const PatternHead: string := "/\\."
  const PatternTail: string := "$/"

  /** The pattern: `/\.` then the extension, or the extensions as a
      parenthesised alternation, then `$/`. */
  function ExtensionsPattern(e: Extensions): (r: string)
    ensures PatternHead <= r
    ensures |r| >= |PatternHead| + |PatternTail| && r[|r| - |PatternTail|..] == PatternTail
    ensures e.One? ==> r[|PatternHead|..|r| - |PatternTail|] == e.ext
    ensures e.Many? ==> r[|PatternHead|..|r| - |PatternTail|] == "(" + Join("|", e.exts) + ")"
  {
    var body := match e
      case One(ext) => ext
      case Many(exts) => "(" + Join("|", exts) + ")";
    var r := PatternHead + body + PatternTail;
    assert r[|r| - |PatternTail|..] == PatternTail;
    assert r[|PatternHead|..|r| - |PatternTail|] == body;
    r
  }

  /** Reads an alternation pattern back into its extensions; `None` for a
      string not of that shape. */
  function ExtensionsOf(pattern: string): (r: Option<seq<string>>)
    ensures r.Some? ==> |r.value| >= 1
  {
    var head := PatternHead + "(";
    var tail := ")" + PatternTail;
    if |pattern| >= |head| + |tail| && pattern[..|head|] == head && pattern[|pattern| - |tail|..] == tail
    then Some(Split(pattern[|head|..|pattern| - |tail|], '|'))
    else None
  }

  /** A non-empty list of extensions none of which holds `|`: the lists an
      alternation can be read back into. */
  predicate PlainExtensions(exts: seq<string>)
  {
    |exts| >= 1 && forall i :: 0 <= i < |exts| ==> '|' !in exts[i]
  }

  /** A plain list of extensions is read back from its pattern exactly. */
  lemma ExtensionsRoundTrip(exts: seq<string>)
    requires PlainExtensions(exts)
    ensures ExtensionsOf(ExtensionsPattern(Many(exts))) == Some(exts)
  {
    var body := Join("|", exts);
    var p := ExtensionsPattern(Many(exts));
    assert p == (PatternHead + "(") + body + (")" + PatternTail);
    var head := PatternHead + "(";
    var tail := ")" + PatternTail;
    assert p[..|head|] == head;
    assert p[|p| - |tail|..] == tail;
    assert p[|head|..|p| - |tail|] == body;
    SplitJoin(exts, '|');
  }

  /** The manager's default pattern is the one for the extensions inc and
      php. */
  lemma DefaultPatternIsIncPhp()
    ensures ExtensionsOf("/\\.(inc|php)$/") == Some(["inc", "php"])
    ensures ExtensionsPattern(Many(["inc", "php"])) == "/\\.(inc|php)$/"
  {
    assert Join("|", ["inc", "php"]) == "inc|php";
    assert ExtensionsPattern(Many(["inc", "php"])) == "/\\.(inc|php)$/";
    ExtensionsRoundTrip(["inc", "php"]);
  }

  // ---------------------------------------------------------------------------
  // fileWrite: the directories on the way to a file
  // ---------------------------------------------------------------------------

  const Slash: char := '/'

  /** `str_replace('\\', '/', $filename)`. */
  function Normalize(filename: string): (n: string)
    ensures |n| == |filename|
    ensures '\\' !in n
    ensures forall i :: 0 <= i < |n| && filename[i] != '\\' ==> n[i] == filename[i]
    ensures forall i :: 0 <= i < |n| && filename[i] == '\\' ==> n[i] == Slash
  {
    seq(|filename|, i requires 0 <= i < |filename| => if filename[i] == '\\' then Slash else filename[i])
  }

  /** The `foreach` of `fileWrite`: each piece is appended to the path so
      far, the result is a directory to create if missing, and a separator
      follows. */
  function Accumulate(pieces: seq<string>, sofar: string): seq<string>
    decreases |pieces|
  {
    if |pieces| == 0 then []
    else [sofar + pieces[0]] + Accumulate(pieces[1..], sofar + pieces[0] + [Slash])
  }

  /** `explode` then `array_pop`: every piece but the file name. */
  function Pop(parts: seq<string>): seq<string>
    requires |parts| >= 1
  {
    parts[..|parts| - 1]
  }

  /** The directories `fileWrite` checks, in the order it checks them. A
      leading empty piece (an absolute path) is shifted off and starts the
      path at "/". */
  function DirectoriesToCreate(filename: string): seq<string>
  {
    var dirs := Pop(Split(Normalize(filename), Slash));
    if |dirs| > 0 && dirs[0] == "" then Accumulate(dirs[1..], [Slash])
    else Accumulate(dirs, "")
  }

  /** Reference: `pre` followed by each prefix of `s` that stops just before
      a separator, in order. Each one, with a separator after it, is a prefix
      of `pre + s`, and each is a proper prefix of the next. */
  function SlashPrefixesFrom(s: string, pre: string): (r: seq<string>)
    ensures forall j :: 0 <= j < |r| ==> r[j] + [Slash] <= pre + s && pre <= r[j]
    ensures forall j, k :: 0 <= j < k < |r| ==> r[j] + [Slash] <= r[k]
    decreases |s|
  {
    if |s| == 0 then []
    else
      var rest := SlashPrefixesFrom(s[1..], pre + [s[0]]);
      assert pre + [s[0]] + s[1..] == pre + s;
      if s[0] == Slash then
        assert forall k :: 0 <= k < |rest| ==> pre + [Slash] <= rest[k];
        [pre] + rest
      else rest
  }

  /** The prefixes of `path` that stop just before a separator. */
  function SlashPrefixes(path: string): seq<string>
  {
    SlashPrefixesFrom(path, "")
  }

  /** Appending a word to the first piece is the same as appending it to the
      path so far. */
  lemma AccumulateShift(w: string, x: string, r: seq<string>, sofar: string)
    ensures Accumulate([w + x] + r, sofar) == Accumulate([x] + r, sofar + w)
  {
    assert ([w + x] + r)[1..] == r;
    assert ([x] + r)[1..] == r;
    assert sofar + (w + x) == sofar + w + x;
  }

  /** The accumulation over the popped pieces of `s` is the reference
      list. */
  lemma {:induction false} AccumulateIsSlashPrefixes(s: string, pre: string)
    ensures Accumulate(Pop(Split(s, Slash)), pre) == SlashPrefixesFrom(s, pre)
    decreases |s|
  {
    if |s| > 0 {
      var rest := Split(s[1..], Slash);
      AccumulateIsSlashPrefixes(s[1..], pre + [s[0]]);
      if s[0] == Slash {
        assert Split(s, Slash) == [""] + rest;
        assert Pop([""] + rest) == [""] + Pop(rest);
        assert ([""] + Pop(rest))[1..] == Pop(rest);
        assert pre + "" == pre;
        assert Accumulate([""] + Pop(rest), pre) == [pre] + Accumulate(Pop(rest), pre + [Slash]);
      } else {
        assert Split(s, Slash) == [[s[0]] + rest[0]] + rest[1..];
        if |rest| > 1 {
          assert Pop([[s[0]] + rest[0]] + rest[1..]) == [[s[0]] + rest[0]] + Pop(rest)[1..];
          assert Pop(rest) == [rest[0]] + Pop(rest)[1..];
          AccumulateShift([s[0]], rest[0], Pop(rest)[1..], pre);
        }
      }
    }
  }

  /** `fileWrite` checks exactly the prefixes of the normalised file name
      that end just before a separator, shortest first, leaving out the empty
      one of an absolute path. */
  lemma DirectoriesAreSlashPrefixes(filename: string)
    ensures var n := Normalize(filename);
      DirectoriesToCreate(filename) == if |n| > 0 && n[0] == Slash then SlashPrefixes(n)[1..] else SlashPrefixes(n)
  {
    var n := Normalize(filename);
    var dirs := Pop(Split(n, Slash));
    if |n| > 0 && n[0] == Slash {
      var rest := Split(n[1..], Slash);
      assert Split(n, Slash) == [""] + rest;
      assert dirs == [""] + Pop(rest);
      assert dirs[1..] == Pop(rest);
      AccumulateIsSlashPrefixes(n[1..], [Slash]);
      assert "" + [n[0]] == [Slash];
      assert SlashPrefixes(n) == [""] + SlashPrefixesFrom(n[1..], [Slash]);
    } else {
      AccumulateIsSlashPrefixes(n, "");
      if |n| > 0 {
        assert Split(n, Slash)[0] == [n[0]] + Split(n[1..], Slash)[0];
      }
    }
  }

  /** Every directory `fileWrite` creates lies on the way to the file, and
      each is created before the directories inside it. */
  lemma DirectoriesLeadToFile(filename: string)
    ensures var n := Normalize(filename);
      var d := DirectoriesToCreate(filename);
      && (forall j :: 0 <= j < |d| ==> d[j] + [Slash] <= n)
      && (forall j, k :: 0 <= j < k < |d| ==> d[j] + [Slash] <= d[k])
  {
    var n := Normalize(filename);
    DirectoriesAreSlashPrefixes(filename);
    var all := SlashPrefixes(n);
    var d := DirectoriesToCreate(filename);
    if |n| > 0 && n[0] == Slash {
      assert "" + n == n;
      forall j | 0 <= j < |d|
        ensures d[j] + [Slash] <= n
      {
        assert d[j] == all[j + 1];
      }
      forall j, k | 0 <= j < k < |d|
        ensures d[j] + [Slash] <= d[k]
      {
        assert d[j] == all[j + 1] && d[k] == all[k + 1];
      }
    } else {
      assert "" + n == n;
    }
  }
}

=== FILE: scanner.dfy ===
/**
  Folder scanning of the autoload manager (`parseFolder`, `parseFolders`).

  The directory walk itself is not modelled: each registered root comes with
  the entries `RecursiveDirectoryIterator` enumerates under it, in order, each
  carrying its path, its base name, whether it is a regular file, and the
  class names the extractor reports for it. What is modelled is the filtering
  (regular file, file-name pattern, excluded-folder prefixes), the collection
  of names into one map where the last declaration wins, and the duplicate
  errors, which differ within a root and across roots.
*/
module Scanner {
  import opened Common

  /** PHP's DIRECTORY_SEPARATOR on a POSIX host. */
  const DirectorySeparator: char := '/'

  /** One entry of the recursive directory enumeration. */
  datatype FileEntry = FileEntry(pathname: string, filename: string, isFile: bool, names: seq<string>)

  /** The manager's filter settings. `matches(regex, filename)` stands for
      `preg_match`, whose regular-expression semantics are left abstract. */
  datatype Filter = Filter(regex: string, excluded: seq<string>, matches: (string, string) -> bool)

  /** The exclusion loop: `strncmp(folder, pathname, strlen(folder)) === 0`
      for some excluded folder, that is, the folder string is a literal
      prefix of the path. */
  predicate IsExcluded(excluded: seq<string>, pathname: string)
  {
    exists i :: 0 <= i < |excluded| && excluded[i] <= pathname
  }

  /** Every excluded folder ends in the directory separator, as
      `excludeFolder` stores them. */
  predicate EndInSeparator(excluded: seq<string>)
  {
    forall i :: 0 <= i < |excluded| ==>
      |excluded[i]| > 0 && excluded[i][|excluded[i]| - 1] == DirectorySeparator
  }

  /** Whether an enumerated entry is read at all. */
  predicate Included(f: Filter, e: FileEntry)
  {
    e.isFile && f.matches(f.regex, e.filename) && !IsExcluded(f.excluded, e.pathname)
  }

  /** The text of a duplicate-declaration error. */
  function DuplicateMessage(name: string, first: string, second: string): string
  {
    "Class " + name + " is specified at least twice: in '" + first + "' and '" + second + "'"
  }

  /** The classes found in one root so far, keyed by name, with the order in
      which each name was first inserted (PHP arrays keep insertion order), and
      the errors recorded for this root. */
  datatype FolderScan = FolderScan(order: seq<string>, found: map<string, string>, errors: seq<string>)

  /** `order` lists the keys of `found`. */
  ghost predicate OrderListsKeys(s: FolderScan)
  {
    forall k :: k in s.order <==> k in s.found
  }

  /** Storing one name declared in file `path`: an error only when the name
      is already mapped to a different path; the new path wins either way. */
  function Record(acc: FolderScan, name: string, path: string): (r: FolderScan)
    requires OrderListsKeys(acc)
    ensures OrderListsKeys(r)
  {
    var errors :=
      if name in acc.found && path != acc.found[name]
      then acc.errors + [DuplicateMessage(name, path, acc.found[name])]
      else acc.errors;
    var order := if name in acc.found then acc.order else acc.order + [name];
    FolderScan(order, acc.found[name := path], errors)
  }

  /** The log after storing one name. */
  lemma RecordErrors(acc: FolderScan, name: string, path: string)
    requires OrderListsKeys(acc)
    ensures Record(acc, name, path).errors ==
      if name in acc.found && path != acc.found[name]
      then acc.errors + [DuplicateMessage(name, path, acc.found[name])]
      else acc.errors
  {
  }

  /** Storing every name one file declares, in order. */
  function RecordAll(acc: FolderScan, names: seq<string>, path: string): (r: FolderScan)
    requires OrderListsKeys(acc)
    ensures OrderListsKeys(r)
    decreases |names|
  {
    if |names| == 0 then acc
    else Record(RecordAll(acc, names[..|names| - 1], path), names[|names| - 1], path)
  }

  /** `parseFolder` over the enumerated entries of one root. */
  function ScanFiles(f: Filter, files: seq<FileEntry>): (r: FolderScan)
    ensures OrderListsKeys(r)
    decreases |files|
  {
    if |files| == 0 then FolderScan([], map[], [])
    else
      var acc := ScanFiles(f, files[..|files| - 1]);
      var e := files[|files| - 1];
      if Included(f, e) then RecordAll(acc, e.names, e.pathname) else acc
  }

  // ---------------------------------------------------------------------------
  // One root
  // ---------------------------------------------------------------------------

  /** File `j` is read and declares `k`. */
  ghost predicate Declares(f: Filter, files: seq<FileEntry>, j: int, k: string)
  {
    0 <= j < |files| && Included(f, files[j]) && k in files[j].names
  }

  /** File `j` is the last read file that declares `k`. */
  ghost predicate LastDeclarer(f: Filter, files: seq<FileEntry>, j: int, k: string)
  {
    Declares(f, files, j, k) && forall j' :: j < j' < |files| ==> !Declares(f, files, j', k)
  }

  /** Every name is declared by read files of a single path. */
  ghost predicate Consistent(f: Filter, files: seq<FileEntry>)
  {
    forall j1, j2, k :: Declares(f, files, j1, k) && Declares(f, files, j2, k) ==>
      files[j1].pathname == files[j2].pathname
  }

  /** Mapping one more name to `path`. */
  lemma MapUnionStep(m: map<string, string>, init: seq<string>, last: string, path: string)
    ensures (m + map k | k in init :: path)[last := path] == m + map k | k in init + [last] :: path
  {
    var before := (m + map k | k in init :: path)[last := path];
    var after := m + map k | k in init + [last] :: path;
    assert forall k :: k in init + [last] <==> k in init || k == last;
    assert forall k :: k in after <==> k in before;
  }

  /** Every name a file declares maps to that file afterwards; other names
      keep their entry. */
  lemma {:induction false} RecordAllFound(acc: FolderScan, names: seq<string>, path: string)
    requires OrderListsKeys(acc)
    ensures RecordAll(acc, names, path).found == acc.found + map k | k in names :: path
    decreases |names|
  {
    if |names| > 0 {
      var init, last := names[..|names| - 1], names[|names| - 1];
      RecordAllFound(acc, init, path);
      assert names == init + [last];
      MapUnionStep(acc.found, init, last, path);
    }
  }

  /** None of `names` is mapped to a path other than `path`. */
  ghost predicate NoClash(m: map<string, string>, names: seq<string>, path: string)
  {
    forall k :: k in names && k in m ==> m[k] == path
  }

  /** Storing a file's names records an error exactly when one of them is
      already mapped to another path; errors are only ever appended. */
  lemma {:induction false} RecordAllErrors(acc: FolderScan, names: seq<string>, path: string)
    requires OrderListsKeys(acc)
    ensures acc.errors <= RecordAll(acc, names, path).errors
    ensures RecordAll(acc, names, path).errors == acc.errors <==> NoClash(acc.found, names, path)
    decreases |names|
  {
    if |names| > 0 {
      var init := names[..|names| - 1];
      var last := names[|names| - 1];
      RecordAllErrors(acc, init, path);
      RecordAllFound(acc, init, path);
      var mid := RecordAll(acc, init, path);
      var r := Record(mid, last, path);
      assert RecordAll(acc, names, path) == r;
      assert names == init + [last];
      assert forall k :: k in names <==> k in init || k == last;
      if last !in init && last in acc.found && acc.found[last] != path {
        assert r.errors == mid.errors + [DuplicateMessage(last, path, mid.found[last])];
        assert |r.errors| > |acc.errors|;
      } else {
        assert r.errors == mid.errors;
      }
    }
  }

  /** The names of `names`, first occurrences only, that `m` maps to a
      path other than `path`. */
  function Clashes(m: map<string, string>, names: seq<string>, path: string): seq<string>
    decreases |names|
  {
    if |names| == 0 then []
    else
      var init, last := names[..|names| - 1], names[|names| - 1];
      Clashes(m, init, path) + (if last !in init && last in m && m[last] != path then [last] else [])
  }

  /** The message for each clashing name: the new path first, then the one
      already stored. */
  function ClashMessages(m: map<string, string>, c: seq<string>, path: string): (r: seq<string>)
    requires forall i :: 0 <= i < |c| ==> c[i] in m
    ensures |r| == |c|
    decreases |c|
  {
    if |c| == 0 then []
    else ClashMessages(m, c[..|c| - 1], path) + [DuplicateMessage(c[|c| - 1], path, m[c[|c| - 1]])]
  }

  /** A name clashes exactly when it occurs, is mapped, and is mapped to
      another path; no name clashes twice. */
  lemma {:induction false} ClashesSpec(m: map<string, string>, names: seq<string>, path: string)
    ensures forall k :: k in Clashes(m, names, path) <==> k in names && k in m && m[k] != path
    ensures forall i, j :: 0 <= i < j < |Clashes(m, names, path)| ==> Clashes(m, names, path)[i] != Clashes(m, names, path)[j]
    decreases |names|
  {
    if |names| > 0 {
      var init, last := names[..|names| - 1], names[|names| - 1];
      assert names == init + [last];
      ClashesSpec(m, init, path);
      ClashesSnoc(m, init, last, path);
      var ci := Clashes(m, init, path);
      assert forall i :: 0 <= i < |ci| ==> ci[i] in ci;
    }
  }

  /** Message `i` names clashing name `i`. */
  lemma {:induction false} ClashMessagesAt(m: map<string, string>, c: seq<string>, path: string)
    requires forall i :: 0 <= i < |c| ==> c[i] in m
    ensures forall i :: 0 <= i < |c| ==> ClashMessages(m, c, path)[i] == DuplicateMessage(c[i], path, m[c[i]])
    decreases |c|
  {
    if |c| > 0 {
      ClashMessagesAt(m, c[..|c| - 1], path);
    }
  }

  /** The same messages, computed name by name. */
  function DupMessages(m: map<string, string>, names: seq<string>, path: string): seq<string>
    decreases |names|
  {
    if |names| == 0 then []
    else
      var init, last := names[..|names| - 1], names[|names| - 1];
      DupMessages(m, init, path) +
        (if last !in init && last in m && m[last] != path then [DuplicateMessage(last, path, m[last])] else [])
  }

  /** Clashes of one more name. */
  lemma ClashesSnoc(m: map<string, string>, init: seq<string>, last: string, path: string)
    ensures Clashes(m, init + [last], path) ==
      Clashes(m, init, path) + (if last !in init && last in m && m[last] != path then [last] else [])
  {
    assert (init + [last])[..|init|] == init;
  }

  /** The messages of one more clashing name. */
  lemma ClashMessagesSnoc(m: map<string, string>, c: seq<string>, last: string, path: string)
    requires forall i :: 0 <= i < |c| ==> c[i] in m
    requires last in m
    ensures ClashMessages(m, c + [last], path) == ClashMessages(m, c, path) + [DuplicateMessage(last, path, m[last])]
  {
    assert (c + [last])[..|c|] == c;
  }

  /** Computing the messages name by name gives one message per clashing name. */
  lemma {:induction false} DupMessagesAreClashMessages(m: map<string, string>, names: seq<string>, path: string)
    ensures forall i :: 0 <= i < |Clashes(m, names, path)| ==> Clashes(m, names, path)[i] in m
    ensures DupMessages(m, names, path) == ClashMessages(m, Clashes(m, names, path), path)
    decreases |names|
  {
    var c := Clashes(m, names, path);
    ClashesSpec(m, names, path);
    forall i | 0 <= i < |c| ensures c[i] in m {
      assert c[i] in c;
    }
    if |names| > 0 {
      var init, last := names[..|names| - 1], names[|names| - 1];
      DupMessagesAreClashMessages(m, init, path);
      ClashesSpec(m, init, path);
      var ci := Clashes(m, init, path);
      if last !in init && last in m && m[last] != path {
        var d := DuplicateMessage(last, path, m[last]);
        assert c == ci + [last];
        ClashMessagesSnoc(m, ci, last, path);
        assert DupMessages(m, names, path) == DupMessages(m, init, path) + [d];
      } else {
        assert c == ci;
        assert DupMessages(m, names, path) == DupMessages(m, init, path);
      }
    }
  }

  /** The entry of one name after storing a file's names. */
  lemma FoundAfter(acc: FolderScan, names: seq<string>, path: string, k: string)
    requires OrderListsKeys(acc)
    ensures var found := RecordAll(acc, names, path).found;
      && (k in names ==> k in found && found[k] == path)
      && (k !in names ==> (k in found <==> k in acc.found))
      && (k !in names && k in acc.found ==> found[k] == acc.found[k])
  {
    RecordAllFound(acc, names, path);
  }

  /** The last of `names`: `midErrors` and `midFound` are the log and the
      map after the names before it, and `before` the map before them all. */
  lemma MessageStep(midErrors: seq<string>, midFound: map<string, string>, before: map<string, string>,
                    names: seq<string>, path: string, log: seq<string>)
    requires |names| > 0
    requires midErrors == log + DupMessages(before, names[..|names| - 1], path)
    requires var init, last := names[..|names| - 1], names[|names| - 1];
      && (last in init ==> last in midFound && midFound[last] == path)
      && (last !in init ==> (last in midFound <==> last in before))
      && (last !in init && last in before ==> midFound[last] == before[last])
    ensures var last := names[|names| - 1];
      (if last in midFound && path != midFound[last]
       then midErrors + [DuplicateMessage(last, path, midFound[last])]
       else midErrors)
      == log + DupMessages(before, names, path)
  {
  }

  /** Storing a file's names appends exactly the messages computed name by
      name. */
  lemma {:induction false} RecordAllDupMessages(acc: FolderScan, names: seq<string>, path: string)
    requires OrderListsKeys(acc)
    ensures RecordAll(acc, names, path).errors == acc.errors + DupMessages(acc.found, names, path)
    decreases |names|
  {
    if |names| > 0 {
      var init, last := names[..|names| - 1], names[|names| - 1];
      RecordAllDupMessages(acc, init, path);
      FoundAfter(acc, init, path, last);
      var mid := RecordAll(acc, init, path);
      RecordErrors(mid, last, path);
      MessageStep(mid.errors, mid.found, acc.found, names, path, acc.errors);
    }
  }

  /** Storing a file's names appends exactly one message per name that was
      mapped to another path before the file was read, in the order those
      names first occur, and nothing else. */
  lemma RecordAllMessages(acc: FolderScan, names: seq<string>, path: string)
    requires OrderListsKeys(acc)
    ensures var c := Clashes(acc.found, names, path);
      && (forall k :: k in c <==> k in names && k in acc.found && acc.found[k] != path)
      && (forall i, j :: 0 <= i < j < |c| ==> c[i] != c[j])
    ensures var c, e := Clashes(acc.found, names, path), RecordAll(acc, names, path).errors;
      && |e| == |acc.errors| + |c|
      && e[..|acc.errors|] == acc.errors
      && forall i :: 0 <= i < |c| ==>
           c[i] in acc.found && e[|acc.errors| + i] == DuplicateMessage(c[i], path, acc.found[c[i]])
  {
    var c, e := Clashes(acc.found, names, path), RecordAll(acc, names, path).errors;
    ClashesSpec(acc.found, names, path);
    RecordAllDupMessages(acc, names, path);
    DupMessagesAreClashMessages(acc.found, names, path);
    var cm := ClashMessages(acc.found, c, path);
    ClashMessagesAt(acc.found, c, path);
    assert e == acc.errors + cm;
    assert e[..|acc.errors|] == acc.errors;
    forall i | 0 <= i < |c|
      ensures c[i] in acc.found && e[|acc.errors| + i] == DuplicateMessage(c[i], path, acc.found[c[i]])
    {
      assert e[|acc.errors| + i] == cm[i];
    }
  }

  /** The first `n` entries are read and declare the same names whether or
      not later entries follow. */
  lemma DeclaresInPrefix(f: Filter, files: seq<FileEntry>, n: nat)
    requires n <= |files|
    ensures forall j, k :: 0 <= j < n ==> (Declares(f, files, j, k) <==> Declares(f, files[..n], j, k))
  {
  }

  /** The keys of `m` are exactly the names some read file declares. */
  ghost predicate KeysDeclared(f: Filter, files: seq<FileEntry>, m: map<string, string>)
  {
    forall k :: k in m <==> exists j :: Declares(f, files, j, k)
  }

  lemma KeysStep(f: Filter, files: seq<FileEntry>, m: map<string, string>)
    requires |files| > 0
    requires KeysDeclared(f, files[..|files| - 1], m)
    ensures var e := files[|files| - 1];
      KeysDeclared(f, files, if Included(f, e) then m + map k | k in e.names :: e.pathname else m)
  {
    var n := |files| - 1;
    DeclaresInPrefix(f, files, n);
    var e := files[n];
    assert forall k :: Declares(f, files, n, k) <==> Included(f, e) && k in e.names;
  }

  /** The names found in a root are exactly those some read file declares. */
  lemma {:induction false} ScanFilesKeys(f: Filter, files: seq<FileEntry>)
    ensures KeysDeclared(f, files, ScanFiles(f, files).found)
    decreases |files|
  {
    if |files| > 0 {
      var n := |files| - 1;
      var e := files[n];
      ScanFilesKeys(f, files[..n]);
      var acc := ScanFiles(f, files[..n]);
      if Included(f, e) {
        RecordAllFound(acc, e.names, e.pathname);
      }
      KeysStep(f, files, acc.found);
    }
  }

  /** Every key of `m` maps to the path of the last read file declaring it. */
  ghost predicate MapsToLast(f: Filter, files: seq<FileEntry>, m: map<string, string>)
  {
    forall k :: k in m ==> exists j :: LastDeclarer(f, files, j, k) && m[k] == files[j].pathname
  }

  lemma LastWinsStep(f: Filter, files: seq<FileEntry>, m: map<string, string>)
    requires |files| > 0
    requires MapsToLast(f, files[..|files| - 1], m)
    ensures var e := files[|files| - 1];
      MapsToLast(f, files, if Included(f, e) then m + map k | k in e.names :: e.pathname else m)
  {
    var n := |files| - 1;
    var pre := files[..n];
    var e := files[n];
    var m' := if Included(f, e) then m + map k | k in e.names :: e.pathname else m;
    DeclaresInPrefix(f, files, n);
    forall k | k in m'
      ensures exists j :: LastDeclarer(f, files, j, k) && m'[k] == files[j].pathname
    {
      if Included(f, e) && k in e.names {
        assert LastDeclarer(f, files, n, k);
      } else {
        assert !Declares(f, files, n, k);
        var j :| LastDeclarer(f, pre, j, k) && m[k] == pre[j].pathname;
        assert LastDeclarer(f, files, j, k);
      }
    }
  }

  /** Each name found in a root maps to the path of the last read file that
      declares it. */
  lemma {:induction false} ScanFilesLastWins(f: Filter, files: seq<FileEntry>)
    ensures MapsToLast(f, files, ScanFiles(f, files).found)
    decreases |files|
  {
    if |files| > 0 {
      var n := |files| - 1;
      var e := files[n];
      ScanFilesLastWins(f, files[..n]);
      var acc := ScanFiles(f, files[..n]);
      if Included(f, e) {
        RecordAllFound(acc, e.names, e.pathname);
      }
      LastWinsStep(f, files, acc.found);
    }
  }

  lemma ConsistentPrefix(f: Filter, files: seq<FileEntry>, n: nat)
    requires n <= |files|
    requires Consistent(f, files)
    ensures Consistent(f, files[..n])
  {
    DeclaresInPrefix(f, files, n);
    forall j1, j2, k | Declares(f, files[..n], j1, k) && Declares(f, files[..n], j2, k)
      ensures files[..n][j1].pathname == files[..n][j2].pathname
    {
      assert Declares(f, files, j1, k) && Declares(f, files, j2, k);
    }
  }

  /** Skipping the last entry leaves consistency as it was. */
  lemma ConsistentSkip(f: Filter, files: seq<FileEntry>)
    requires |files| > 0
    requires !Included(f, files[|files| - 1])
    ensures Consistent(f, files) <==> Consistent(f, files[..|files| - 1])
  {
    var n := |files| - 1;
    DeclaresInPrefix(f, files, n);
    assert forall k :: !Declares(f, files, n, k);
    if Consistent(f, files[..n]) {
      forall j1, j2, k | Declares(f, files, j1, k) && Declares(f, files, j2, k)
        ensures files[j1].pathname == files[j2].pathname
      {
        assert Declares(f, files[..n], j1, k) && Declares(f, files[..n], j2, k);
      }
    }
    if Consistent(f, files) { ConsistentPrefix(f, files, n); }
  }

  /** A consistent listing has no clash between its last entry and the map
      of the entries before it. */
  lemma ConsistentNoClash(f: Filter, files: seq<FileEntry>, m: map<string, string>)
    requires |files| > 0
    requires Included(f, files[|files| - 1])
    requires MapsToLast(f, files[..|files| - 1], m)
    requires Consistent(f, files)
    ensures NoClash(m, files[|files| - 1].names, files[|files| - 1].pathname)
  {
    var n := |files| - 1;
    var pre := files[..n];
    var e := files[n];
    forall k | k in e.names && k in m
      ensures m[k] == e.pathname
    {
      var jl :| LastDeclarer(f, pre, jl, k) && m[k] == pre[jl].pathname;
      assert pre[jl] == files[jl];
      assert Declares(f, files, jl, k) && Declares(f, files, n, k);
    }
  }

  /** A consistent prefix and a last entry without clash make a consistent
      listing. */
  lemma NoClashConsistent(f: Filter, files: seq<FileEntry>, m: map<string, string>)
    requires |files| > 0
    requires Included(f, files[|files| - 1])
    requires KeysDeclared(f, files[..|files| - 1], m)
    requires MapsToLast(f, files[..|files| - 1], m)
    requires Consistent(f, files[..|files| - 1])
    requires NoClash(m, files[|files| - 1].names, files[|files| - 1].pathname)
    ensures Consistent(f, files)
  {
    var n := |files| - 1;
    var pre := files[..n];
    var e := files[n];
    forall j1, j2, k | Declares(f, files, j1, k) && Declares(f, files, j2, k)
      ensures files[j1].pathname == files[j2].pathname
    {
      if j1 < n && j2 < n {
        assert pre[j1] == files[j1] && pre[j2] == files[j2];
        assert Declares(f, pre, j1, k) && Declares(f, pre, j2, k);
      } else if j1 < n || j2 < n {
        var j := if j1 < n then j1 else j2;
        assert pre[j] == files[j];
        assert Declares(f, pre, j, k);
        var jl :| LastDeclarer(f, pre, jl, k) && m[k] == pre[jl].pathname;
        assert Declares(f, pre, jl, k);
        assert pre[j].pathname == pre[jl].pathname;
      }
    }
  }

  /** Reading the last entry keeps consistency exactly when none of its names
      is already mapped to another path. */
  lemma ConsistentExtend(f: Filter, files: seq<FileEntry>, m: map<string, string>)
    requires |files| > 0
    requires Included(f, files[|files| - 1])
    requires KeysDeclared(f, files[..|files| - 1], m)
    requires MapsToLast(f, files[..|files| - 1], m)
    ensures var e := files[|files| - 1];
      Consistent(f, files) <==> Consistent(f, files[..|files| - 1]) && NoClash(m, e.names, e.pathname)
  {
    var e := files[|files| - 1];
    if Consistent(f, files) {
      ConsistentPrefix(f, files, |files| - 1);
      ConsistentNoClash(f, files, m);
    }
    if Consistent(f, files[..|files| - 1]) && NoClash(m, e.names, e.pathname) {
      NoClashConsistent(f, files, m);
    }
  }

  /** A root records no duplicate error exactly when every name it reads is
      declared under a single path: a file that declares a name twice, or
      two entries with the same path, stay silent. */
  lemma {:induction false} ScanFilesErrors(f: Filter, files: seq<FileEntry>)
    ensures ScanFiles(f, files).errors == [] <==> Consistent(f, files)
    decreases |files|
  {
    if |files| > 0 {
      var n := |files| - 1;
      var e := files[n];
      ScanFilesErrors(f, files[..n]);
      var acc := ScanFiles(f, files[..n]);
      if Included(f, e) {
        ScanFilesKeys(f, files[..n]);
        ScanFilesLastWins(f, files[..n]);
        RecordAllErrors(acc, e.names, e.pathname);
        ConsistentExtend(f, files, acc.found);
      } else {
        ConsistentSkip(f, files);
      }
    }
  }

  /** `order` lists each name once, as the keys of a PHP array do. */
  ghost predicate OrderDistinct(s: FolderScan)
  {
    forall i, j :: 0 <= i < j < |s.order| ==> s.order[i] != s.order[j]
  }

  lemma RecordOrderDistinct(acc: FolderScan, name: string, path: string)
    requires OrderListsKeys(acc) && OrderDistinct(acc)
    ensures OrderDistinct(Record(acc, name, path))
  {
    if name !in acc.found {
      assert name !in acc.order;
    }
  }

  lemma {:induction false} RecordAllOrderDistinct(acc: FolderScan, names: seq<string>, path: string)
    requires OrderListsKeys(acc) && OrderDistinct(acc)
    ensures OrderDistinct(RecordAll(acc, names, path))
    decreases |names|
  {
    if |names| > 0 {
      RecordAllOrderDistinct(acc, names[..|names| - 1], path);
      RecordOrderDistinct(RecordAll(acc, names[..|names| - 1], path), names[|names| - 1], path);
    }
  }

  /** A root's insertion order never lists a name twice. */
  lemma {:induction false} ScanFilesOrderDistinct(f: Filter, files: seq<FileEntry>)
    ensures OrderDistinct(ScanFiles(f, files))
    decreases |files|
  {
    if |files| > 0 {
      var n := |files| - 1;
      ScanFilesOrderDistinct(f, files[..n]);
      if Included(f, files[n]) {
        RecordAllOrderDistinct(ScanFiles(f, files[..n]), files[n].names, files[n].pathname);
      }
    }
  }

  // ---------------------------------------------------------------------------
  // All roots
  // ---------------------------------------------------------------------------

  /** The result of `parseFolders`: the merged map and the errors in the
      order they were recorded. */
  datatype RootsScan = RootsScan(found: map<string, string>, errors: seq<string>)

  /** `parseFolder` on one registered root. */
  function ParseFolder(f: Filter, listing: string -> seq<FileEntry>, folder: string): (r: FolderScan)
    ensures OrderListsKeys(r)
  {
    ScanFiles(f, listing(folder))
  }

  /** The names of `order` that `earlier` holds, in order. */
  function Held(order: seq<string>, earlier: map<string, string>): (h: seq<string>)
    ensures forall k :: k in h <==> k in order && k in earlier
    ensures (forall i, j :: 0 <= i < j < |order| ==> order[i] != order[j]) ==>
      forall i, j :: 0 <= i < j < |h| ==> h[i] != h[j]
    decreases |order|
  {
    if |order| == 0 then []
    else
      assert forall i, j :: 0 <= i < j < |order[1..]| ==> order[1..][i] == order[i + 1] && order[1..][j] == order[j + 1];
      assert (forall i, j :: 0 <= i < j < |order| ==> order[i] != order[j]) ==> order[0] !in order[1..];
      (if order[0] in earlier then [order[0]] else []) + Held(order[1..], earlier)
  }

  /** The cross-root check of `parseFolders`: walking the root's names in
      insertion order, an error for each one the earlier roots already hold,
      whatever its path. */
  function CrossErrors(order: seq<string>, inFolder: map<string, string>, earlier: map<string, string>): (r: seq<string>)
    requires forall i :: 0 <= i < |order| ==> order[i] in inFolder
    ensures |r| <= |order|
    ensures r == [] <==> forall i :: 0 <= i < |order| ==> order[i] !in earlier
    ensures forall i :: 0 <= i < |order| && order[i] in earlier ==>
      DuplicateMessage(order[i], earlier[order[i]], inFolder[order[i]]) in r
    decreases |order|
  {
    if |order| == 0 then []
    else
      var k := order[0];
      (if k in earlier then [DuplicateMessage(k, earlier[k], inFolder[k])] else [])
        + CrossErrors(order[1..], inFolder, earlier)
  }

  /** The message for each held name, the earlier path first. */
  function HeldMessages(h: seq<string>, inFolder: map<string, string>, earlier: map<string, string>): (r: seq<string>)
    requires forall i :: 0 <= i < |h| ==> h[i] in inFolder && h[i] in earlier
    ensures |r| == |h|
    ensures forall i :: 0 <= i < |h| ==> r[i] == DuplicateMessage(h[i], earlier[h[i]], inFolder[h[i]])
    decreases |h|
  {
    if |h| == 0 then []
    else [DuplicateMessage(h[0], earlier[h[0]], inFolder[h[0]])] + HeldMessages(h[1..], inFolder, earlier)
  }

  /** The cross-root errors are exactly the messages for the held names, in
      the root's order: every message is for a name some earlier root holds,
      and there is one per held entry of the order. */
  lemma {:induction false} CrossErrorsAreHeldMessages(order: seq<string>, inFolder: map<string, string>, earlier: map<string, string>)
    requires forall i :: 0 <= i < |order| ==> order[i] in inFolder
    ensures forall i :: 0 <= i < |Held(order, earlier)| ==> Held(order, earlier)[i] in inFolder
    ensures CrossErrors(order, inFolder, earlier) == HeldMessages(Held(order, earlier), inFolder, earlier)
    decreases |order|
  {
    if |order| > 0 {
      var k := order[0];
      var rest := Held(order[1..], earlier);
      CrossErrorsAreHeldMessages(order[1..], inFolder, earlier);
      if k in earlier {
        var h := [k] + rest;
        assert Held(order, earlier) == h;
        assert h[0] == k && h[1..] == rest;
      } else {
        assert Held(order, earlier) == rest;
      }
    }
  }

  /** The cross-root check of one root logs exactly one message per name
      the root holds that the earlier roots already hold. */
  lemma CrossErrorsOncePerName(f: Filter, listing: string -> seq<FileEntry>, folder: string, earlier: map<string, string>)
    ensures var s := ParseFolder(f, listing, folder);
      var h := Held(s.order, earlier);
      && (forall k :: k in h <==> k in s.found && k in earlier)
      && (forall i, j :: 0 <= i < j < |h| ==> h[i] != h[j])
      && CrossErrors(s.order, s.found, earlier) == HeldMessages(h, s.found, earlier)
  {
    var s := ParseFolder(f, listing, folder);
    ScanFilesOrderDistinct(f, listing(folder));
    CrossErrorsAreHeldMessages(s.order, s.found, earlier);
  }

  /** `parseFolders`: the roots in registration order, later roots
      overriding earlier ones (`array_merge` on string keys). */
  function ParseFolders(f: Filter, listing: string -> seq<FileEntry>, folders: seq<string>): RootsScan
    decreases |folders|
  {
    if |folders| == 0 then RootsScan(map[], [])
    else
      var acc := ParseFolders(f, listing, folders[..|folders| - 1]);
      var s := ParseFolder(f, listing, folders[|folders| - 1]);
      RootsScan(acc.found + s.found, acc.errors + s.errors + CrossErrors(s.order, s.found, acc.found))
  }

  /** Root `r` holds `k` after its own scan. */
  ghost predicate RootDeclares(f: Filter, listing: string -> seq<FileEntry>, folders: seq<string>, r: int, k: string)
  {
    0 <= r < |folders| && k in ParseFolder(f, listing, folders[r]).found
  }

  /** Root `r` is the last root that holds `k`. */
  ghost predicate LastRoot(f: Filter, listing: string -> seq<FileEntry>, folders: seq<string>, r: int, k: string)
  {
    RootDeclares(f, listing, folders, r, k) &&
    forall r' :: r < r' < |folders| ==> !RootDeclares(f, listing, folders, r', k)
  }

  /** Every root is internally consistent, and no name is held by two roots. */
  ghost predicate RootsAgree(f: Filter, listing: string -> seq<FileEntry>, folders: seq<string>)
  {
    && (forall r :: 0 <= r < |folders| ==> ParseFolder(f, listing, folders[r]).errors == [])
    && (forall r1, r2, k :: RootDeclares(f, listing, folders, r1, k) && RootDeclares(f, listing, folders, r2, k) ==> r1 == r2)
  }

  lemma RootDeclaresInPrefix(f: Filter, listing: string -> seq<FileEntry>, folders: seq<string>, n: nat)
    requires n <= |folders|
    ensures forall r, k :: 0 <= r < n ==>
      (RootDeclares(f, listing, folders, r, k) <==> RootDeclares(f, listing, folders[..n], r, k))
  {
  }

  lemma {:induction false} CrossErrorsEmpty(order: seq<string>, inFolder: map<string, string>, earlier: map<string, string>)
    requires forall i :: 0 <= i < |order| ==> order[i] in inFolder
    ensures CrossErrors(order, inFolder, earlier) == [] <==> forall i :: 0 <= i < |order| ==> order[i] !in earlier
    decreases |order|
  {
    if |order| > 0 {
      CrossErrorsEmpty(order[1..], inFolder, earlier);
      assert forall i :: 1 <= i < |order| ==> order[i] == order[1..][i - 1];
    }
  }

  /** The keys of `m` are exactly the names some root holds. */
  ghost predicate KeysInRoots(f: Filter, listing: string -> seq<FileEntry>, folders: seq<string>, m: map<string, string>)
  {
    forall k :: k in m <==> exists r :: RootDeclares(f, listing, folders, r, k)
  }

  /** Every key of `m` maps to what the last root holding it found. */
  ghost predicate MapsToLastRoot(f: Filter, listing: string -> seq<FileEntry>, folders: seq<string>, m: map<string, string>)
  {
    forall k :: k in m ==> exists r ::
      LastRoot(f, listing, folders, r, k) && m[k] == ParseFolder(f, listing, folders[r]).found[k]
  }

  lemma KeysInRootsStep(f: Filter, listing: string -> seq<FileEntry>, folders: seq<string>, m: map<string, string>)
    requires |folders| > 0
    requires KeysInRoots(f, listing, folders[..|folders| - 1], m)
    ensures KeysInRoots(f, listing, folders, m + ParseFolder(f, listing, folders[|folders| - 1]).found)
  {
    var n := |folders| - 1;
    var pre := folders[..n];
    var s := ParseFolder(f, listing, folders[n]);
    var m' := m + s.found;
    forall k
      ensures k in m' <==> exists r :: RootDeclares(f, listing, folders, r, k)
    {
      if k in s.found {
        assert RootDeclares(f, listing, folders, n, k);
      } else if k in m {
        var r :| RootDeclares(f, listing, pre, r, k);
        assert pre[r] == folders[r];
        assert RootDeclares(f, listing, folders, r, k);
      }
      if exists r :: RootDeclares(f, listing, folders, r, k) {
        var r :| RootDeclares(f, listing, folders, r, k);
        if r < n {
          assert pre[r] == folders[r];
          assert RootDeclares(f, listing, pre, r, k);
        }
      }
    }
  }

  /** The names found across roots are exactly those some root holds. */
  lemma {:induction false} ParseFoldersKeys(f: Filter, listing: string -> seq<FileEntry>, folders: seq<string>)
    ensures KeysInRoots(f, listing, folders, ParseFolders(f, listing, folders).found)
    decreases |folders|
  {
    if |folders| > 0 {
      var n := |folders| - 1;
      ParseFoldersKeys(f, listing, folders[..n]);
      KeysInRootsStep(f, listing, folders, ParseFolders(f, listing, folders[..n]).found);
    }
  }

  lemma LastRootStep(f: Filter, listing: string -> seq<FileEntry>, folders: seq<string>, m: map<string, string>)
    requires |folders| > 0
    requires MapsToLastRoot(f, listing, folders[..|folders| - 1], m)
    ensures MapsToLastRoot(f, listing, folders, m + ParseFolder(f, listing, folders[|folders| - 1]).found)
  {
    var n := |folders| - 1;
    var pre := folders[..n];
    var s := ParseFolder(f, listing, folders[n]);
    var m' := m + s.found;
    RootDeclaresInPrefix(f, listing, folders, n);
    forall k | k in m'
      ensures exists r :: LastRoot(f, listing, folders, r, k) && m'[k] == ParseFolder(f, listing, folders[r]).found[k]
    {
      if k in s.found {
        assert LastRoot(f, listing, folders, n, k);
      } else {
        assert !RootDeclares(f, listing, folders, n, k);
        var r :| LastRoot(f, listing, pre, r, k) && m[k] == ParseFolder(f, listing, pre[r]).found[k];
        assert pre[r] == folders[r];
        assert LastRoot(f, listing, folders, r, k);
      }
    }
  }

  /** Each name found across roots maps to what the last root holding it
      found: later roots win. */
  lemma {:induction false} ParseFoldersLastWins(f: Filter, listing: string -> seq<FileEntry>, folders: seq<string>)
    ensures MapsToLastRoot(f, listing, folders, ParseFolders(f, listing, folders).found)
    decreases |folders|
  {
    if |folders| > 0 {
      var n := |folders| - 1;
      ParseFoldersLastWins(f, listing, folders[..n]);
      LastRootStep(f, listing, folders, ParseFolders(f, listing, folders[..n]).found);
    }
  }

  /** Agreement over all roots implies agreement over the earlier roots, a
      clean last root, and no name of the last root held by an earlier one. */
  lemma RootsAgreeShrink(f: Filter, listing: string -> seq<FileEntry>, folders: seq<string>, m: map<string, string>)
    requires |folders| > 0
    requires KeysInRoots(f, listing, folders[..|folders| - 1], m)
    requires RootsAgree(f, listing, folders)
    ensures var s := ParseFolder(f, listing, folders[|folders| - 1]);
      RootsAgree(f, listing, folders[..|folders| - 1]) && s.errors == [] && s.found.Keys !! m.Keys
  {
    var n := |folders| - 1;
    var pre := folders[..n];
    var s := ParseFolder(f, listing, folders[n]);
    forall r | 0 <= r < |pre|
      ensures ParseFolder(f, listing, pre[r]).errors == []
    {
      assert pre[r] == folders[r];
    }
    forall r1, r2, k | RootDeclares(f, listing, pre, r1, k) && RootDeclares(f, listing, pre, r2, k)
      ensures r1 == r2
    {
      assert pre[r1] == folders[r1] && pre[r2] == folders[r2];
      assert RootDeclares(f, listing, folders, r1, k) && RootDeclares(f, listing, folders, r2, k);
    }
    forall k | k in s.found
      ensures k !in m
    {
      assert RootDeclares(f, listing, folders, n, k);
      forall r | 0 <= r < n
        ensures !RootDeclares(f, listing, pre, r, k)
      {
        assert pre[r] == folders[r];
        assert RootDeclares(f, listing, pre, r, k) ==> RootDeclares(f, listing, folders, r, k);
      }
    }
  }

  /** Agreement over the earlier roots, a clean last root, and no name of the
      last root held by an earlier one give agreement over all roots. */
  lemma RootsAgreeGrow(f: Filter, listing: string -> seq<FileEntry>, folders: seq<string>, m: map<string, string>)
    requires |folders| > 0
    requires KeysInRoots(f, listing, folders[..|folders| - 1], m)
    requires var s := ParseFolder(f, listing, folders[|folders| - 1]);
      RootsAgree(f, listing, folders[..|folders| - 1]) && s.errors == [] && s.found.Keys !! m.Keys
    ensures RootsAgree(f, listing, folders)
  {
    var n := |folders| - 1;
    var pre := folders[..n];
    forall r | 0 <= r < |folders|
      ensures ParseFolder(f, listing, folders[r]).errors == []
    {
      if r < n { assert pre[r] == folders[r]; }
    }
    forall r1, r2, k | RootDeclares(f, listing, folders, r1, k) && RootDeclares(f, listing, folders, r2, k)
      ensures r1 == r2
    {
      assert r1 < n ==> pre[r1] == folders[r1] && RootDeclares(f, listing, pre, r1, k);
      assert r2 < n ==> pre[r2] == folders[r2] && RootDeclares(f, listing, pre, r2, k);
    }
  }

  /** Agreement over all roots is agreement over the earlier roots, a clean
      last root, and no name of the last root held by an earlier one. */
  lemma RootsAgreeStep(f: Filter, listing: string -> seq<FileEntry>, folders: seq<string>, m: map<string, string>)
    requires |folders| > 0
    requires KeysInRoots(f, listing, folders[..|folders| - 1], m)
    ensures var s := ParseFolder(f, listing, folders[|folders| - 1]);
      RootsAgree(f, listing, folders) <==>
        RootsAgree(f, listing, folders[..|folders| - 1]) && s.errors == [] && s.found.Keys !! m.Keys
  {
    var s := ParseFolder(f, listing, folders[|folders| - 1]);
    if RootsAgree(f, listing, folders) {
      RootsAgreeShrink(f, listing, folders, m);
    }
    if RootsAgree(f, listing, folders[..|folders| - 1]) && s.errors == [] && s.found.Keys !! m.Keys {
      RootsAgreeGrow(f, listing, folders, m);
    }
  }

  /** A scan pass records no error exactly when every root is internally
      consistent and no name is found in two roots, even under the same
      path. */
  lemma {:induction false} ParseFoldersErrors(f: Filter, listing: string -> seq<FileEntry>, folders: seq<string>)
    ensures ParseFolders(f, listing, folders).errors == [] <==> RootsAgree(f, listing, folders)
    decreases |folders|
  {
    if |folders| > 0 {
      var n := |folders| - 1;
      ParseFoldersErrors(f, listing, folders[..n]);
      ParseFoldersKeys(f, listing, folders[..n]);
      var acc := ParseFolders(f, listing, folders[..n]);
      var s := ParseFolder(f, listing, folders[n]);
      CrossErrorsEmpty(s.order, s.found, acc.found);
      assert CrossErrors(s.order, s.found, acc.found) == [] <==> s.found.Keys !! acc.found.Keys by {
        assert forall k :: k in s.found <==> k in s.order;
      }
      RootsAgreeStep(f, listing, folders, acc.found);
    }
  }

  // ---------------------------------------------------------------------------
  // Exclusion and duplicates on small inputs
  // ---------------------------------------------------------------------------

  /** With every excluded folder stored with a trailing separator, a folder
      excludes a path only when the path continues it at a separator: a
      folder `dir/` never excludes a sibling such as `dir2/x` whose name
      merely starts with the same letters. */
  lemma ExcludedFolderBoundary(excluded: seq<string>, path: string)
    requires EndInSeparator(excluded)
    ensures forall i :: 0 <= i < |excluded| && excluded[i] <= path ==>
      path[|excluded[i]| - 1] == DirectorySeparator
  {
    forall i | 0 <= i < |excluded| && excluded[i] <= path
      ensures path[|excluded[i]| - 1] == DirectorySeparator
    {
      assert path[|excluded[i]| - 1] == excluded[i][|excluded[i]| - 1];
    }
  }

  /** Excluding `/app/lib` keeps `/app/library/x.php`. */
  lemma LibraryIsNotUnderLib()
    ensures !IsExcluded(["/app/lib/"], "/app/library/x.php")
  {
    var excluded := ["/app/lib/"];
    assert EndInSeparator(excluded);
    ExcludedFolderBoundary(excluded, "/app/library/x.php");
    assert "/app/library/x.php"[8] == 'r';
  }

  function AnyFileName(regex: string, filename: string): bool { true }

  /** `/app` holds `a.src` declaring `foo` and `lib/b.src` declaring `bar`. */
  function AppListing(folder: string): seq<FileEntry>
  {
    if folder == "/app" then
      [FileEntry("/app/a.src", "a.src", true, ["foo"]), FileEntry("/app/lib/b.src", "b.src", true, ["bar"])]
    else []
  }

  /** Excluding `/app/lib/` drops `/app/lib/b.src` and keeps `/app/a.src`. */
  lemma AppFilter(f: Filter, a: FileEntry, b: FileEntry)
    requires f == Filter("", ["/app/lib/"], AnyFileName)
    requires a == FileEntry("/app/a.src", "a.src", true, ["foo"])
    requires b == FileEntry("/app/lib/b.src", "b.src", true, ["bar"])
    ensures Included(f, a) && !Included(f, b)
  {
    assert !("/app/lib/" <= "/app/a.src") by { assert "/app/lib/"[5] != "/app/a.src"[5]; }
    assert ["/app/lib/"][0] <= "/app/lib/b.src";
  }

  /** With `/app/lib` excluded, only `foo` is found and nothing is reported. */
  lemma ExcludedSubtreeContributesNothing()
    ensures ParseFolders(Filter("", ["/app/lib/"], AnyFileName), AppListing, ["/app"])
      == RootsScan(map["foo" := "/app/a.src"], [])
  {
    var f := Filter("", ["/app/lib/"], AnyFileName);
    var a := FileEntry("/app/a.src", "a.src", true, ["foo"]);
    var b := FileEntry("/app/lib/b.src", "b.src", true, ["bar"]);
    AppFilter(f, a, b);
    SingleFileScan(f, a, "foo");
    assert [a, b][..1] == [a];
    assert ScanFiles(f, [a, b]) == ScanFiles(f, [a]);
    assert ParseFolder(f, AppListing, "/app") == FolderScan(["foo"], map["foo" := "/app/a.src"], []);
    assert ["/app"][..0] == [];
    assert ParseFolders(f, AppListing, []) == RootsScan(map[], []);
  }

  /** Root `/r1` holds `x.src` declaring `x`; so does root `/r2`. */
  function TwoRootListing(folder: string): seq<FileEntry>
  {
    if folder == "/r1" then [FileEntry("/r1/x.src", "x.src", true, ["x"])]
    else if folder == "/r2" then [FileEntry("/r2/x.src", "x.src", true, ["x"])]
    else []
  }

  /** A listing of one read file declaring one name. */
  lemma SingleFileScan(f: Filter, e: FileEntry, name: string)
    requires Included(f, e) && e.names == [name]
    ensures ScanFiles(f, [e]) == FolderScan([name], map[name := e.pathname], [])
  {
    var empty := FolderScan([], map[], []);
    assert [e][..0] == [];
    assert e.names[..0] == [];
    assert RecordAll(empty, e.names, e.pathname) == Record(empty, name, e.pathname);
  }

  /** A name found in two roots gives one error citing the earlier path first,
      and the later root's path is kept. */
  lemma TwoRootsReportOneDuplicate()
    ensures ParseFolders(Filter("", [], AnyFileName), TwoRootListing, ["/r1", "/r2"])
      == RootsScan(map["x" := "/r2/x.src"], [DuplicateMessage("x", "/r1/x.src", "/r2/x.src")])
  {
    var f := Filter("", [], AnyFileName);
    SingleFileScan(f, FileEntry("/r1/x.src", "x.src", true, ["x"]), "x");
    SingleFileScan(f, FileEntry("/r2/x.src", "x.src", true, ["x"]), "x");
    var s1 := ParseFolder(f, TwoRootListing, "/r1");
    var s2 := ParseFolder(f, TwoRootListing, "/r2");
    assert ["/r1", "/r2"][..1] == ["/r1"];
    assert ["/r1"][..0] == [];
    assert ParseFolders(f, TwoRootListing, ["/r1"]) == RootsScan(map["x" := "/r1/x.src"], []);
    assert CrossErrors(s2.order, s2.found, map["x" := "/r1/x.src"])
      == [DuplicateMessage("x", "/r1/x.src", "/r2/x.src")];
    assert map["x" := "/r1/x.src"] + s2.found == map["x" := "/r2/x.src"];
  }

  /** Registering the same root twice reports every name it holds, although
      both declarations come from the same file. */
  lemma SameRootTwiceReportsDuplicate()
    ensures ParseFolders(Filter("", [], AnyFileName), TwoRootListing, ["/r1", "/r1"]).errors
      == [DuplicateMessage("x", "/r1/x.src", "/r1/x.src")]
  {
    var f := Filter("", [], AnyFileName);
    SingleFileScan(f, FileEntry("/r1/x.src", "x.src", true, ["x"]), "x");
    assert ["/r1", "/r1"][..1] == ["/r1"];
    assert ["/r1"][..0] == [];
    assert ParseFolders(f, TwoRootListing, ["/r1"]) == RootsScan(map["x" := "/r1/x.src"], []);
  }

  /** Within one root, a file that declares a name twice stays silent. */
  lemma SameFileTwiceIsSilent()
    ensures ScanFiles(Filter("", [], AnyFileName), [FileEntry("/r/a.php", "a.php", true, ["a", "a"])]).errors == []
  {
    var f := Filter("", [], AnyFileName);
    var e := FileEntry("/r/a.php", "a.php", true, ["a", "a"]);
    assert [e][..0] == [];
    RecordAllErrors(FolderScan([], map[], []), e.names, e.pathname);
  }
}
